=== FILE: README.md ===
# ceng391 image core in Dafny

This project models `ceng391::Image`, the 2-D raster image class that the
CENG391 homework copies share. An image is a flat byte buffer of
`m_step * m_height` bytes. Row `j` starts at `j * m_step`, and channel `c` of
pixel `i` of that row sits at `i * m_n_channels + c` within it. A row may end
in padding when `m_step` exceeds `m_width * m_n_channels`.

The model covers these operations:

- the constructor's stride rule, and `new_gray` / `new_rgb`;
- the two clipping orders of `set_rect`, and the three branches of `set_rect_rgb`;
- nearest-neighbour magnification (`scaleup_nn`), which replaces the image's buffer;
- the brightness/contrast remap (`transformImage`), which returns a new buffer;
- the binary PGM/PPM writers of the different copies;
- the `read_pnm` header scanner and row reader.

Each operation that changes the image, or that loops over its buffer, is a
method of the class `ImageBuffer.Image`. Its buffer is an `array`. Every such
method is proved against a specification function on byte sequences:

| function | module | describes |
|---|---|---|
| `FillRect` | Raster | the rectangle fills |
| `Magnify` | Resample | nearest-neighbour magnification |
| `Transformed` | Intensity | the brightness/contrast remap |
| `PnmFile` | Pnm | the bytes a writer emits |
| `DecodePnm` | Pnm | what the reader makes of a file |

Lemmas about those functions state what the code promises:

- a fill touches exactly the rectangle's pixels inside the image, and never the row padding;
- every magnified block is uniform;
- the remap is monotone and is the identity at contrast 1 and brightness 0;
- writing a gray image and reading it back gives the image again.

The copies differ, and each variant is its own member:

| copy | `set_rect` clipping | `write_pnm` |
|---|---|---|
| hw02 (`CENG391_hw02_e01`, `CENG391_hw02_e02`) | shrinks the extent before moving the origin | writes gray images only |
| `ceng391_02T` | moves the origin first | also writes `P6` |
| `ceng391_03T` | moves the origin first | writes gray images only |

In these places the copies behave unexpectedly; the model follows the code:

- In 02T/03T, `set_rect` moves the origin before it adjusts the extent.
- On any other channel count, `set_rect_rgb` prints a message and changes nothing.
- The 02T writer returns true even when it writes nothing.
- `scaleup_nn` replaces the image's own buffer and geometry.

`set_rect_rgb` on an RGB image does not clip a negative origin, and it visits column `m_width`. The model does not follow the code there: `SetRectRgb` requires a rectangle that avoids both. Only `RgbOffByOne` exhibits those writes, and "## Left out" admits the rest.

## Model

| member | source | states |
|---|---|---|
| ImageBuffer.Image.constructor | CENG391_hw02_e01/image.cc:55-65 | The stride is `width * n_channels`, raised to the requested step when that is larger. The buffer is fresh and holds `m_step * m_height` bytes, which makes the image valid. |
| ImageBuffer.Image.NewGray | CENG391_hw02_e01/image.cc:72-75 | A fresh valid one-channel image whose stride equals its width. |
| ImageBuffer.Image.NewRgb | CENG391_hw02_e01/image.cc:77-80 | A fresh valid three-channel image whose stride is `3 * width`. |
| Raster.Stride | ceng391_02T/image.cc:50-52 | The stride is at least `width * n_channels` and at least the requested step, and it is one of the two. |
| Raster.PixelOffsetInside | CENG391_hw02_e01/image.cc:97-101 | Channel `c` of an in-image pixel `(i, j)` is at `j * m_step + i * m_n_channels + c`. That offset is inside the buffer and before the row's padding. |
| ImageBuffer.Image.Fill | CENG391_hw02_e01/image.cc:94-104 | The fill loops, once the origin is non-negative. The new buffer is `FillRect` of the old one. The column bound may be `m_width`, or `m_width + 1` when the rectangle ends inside the image. |
| ImageBuffer.Image.FillRow | CENG391_hw02_e01/image.cc:97-103 | One row of the fill moves the boundary between final bytes and untouched bytes `m_step` bytes on. |
| ImageBuffer.Image.FillPixel | CENG391_hw02_e01/image.cc:101-102 | The channel loop of one pixel makes its `n_channels` bytes final and changes nothing else. |
| ImageBuffer.Image.SetRect | CENG391_hw02_e01/image.cc:82-105 | hw02 `set_rect`. The buffer becomes the fill of `ClipShrinkFirst` with `value` in every channel. |
| Raster.ClipShrinkFirst | CENG391_hw02_e01/image.cc:84-92 | The clipped rectangle has a non-negative origin. It covers a pixel of non-negative coordinates exactly when the requested rectangle does. |
| ImageBuffer.Image.SetRectZeroFirst | ceng391_02T/image.cc:71-94 | 02T/03T `set_rect`. The buffer becomes the fill of `ClipZeroFirst` with `value` in every channel. |
| Raster.ClipZeroFirst | ceng391_02T/image.cc:73-81 | A negative `x` or `y` becomes 0, and a non-negative one is kept. The width and height are kept unchanged. The result covers every non-negative pixel of the request, and possibly more. |
| Raster.AverageGray | ceng391_02T/image.cc:98 | The grey level is the floor of the mean of the three levels: `3v <= r+g+b < 3v+3`. |
| ImageBuffer.Image.SetRectRgb | ceng391_02T/image.cc:96-117 | On a gray image: the zero-first fill with the average level. On an RGB image: the fill of the rectangle, unclipped, with channel `c` set to the `c`-th level. On any other channel count the buffer is unchanged. |
| Raster.FillRectPixel | CENG391_hw02_e01/image.cc:94-104 | After a fill, channel `c` of in-image pixel `(i, j)` holds `colour[c]` when the pixel is in the rectangle. Otherwise it keeps its old value. |
| Raster.FillRectPadding | CENG391_hw02_e01/image.cc:98-100 | Row padding past `m_width * m_n_channels` is never written. |
| Raster.FillRectBefore | CENG391_hw02_e01/image.cc:94-104 | Every byte before the rectangle's first pixel keeps its value. |
| Raster.FillRectAfter | CENG391_hw02_e01/image.cc:94-96 | Once the row loop stops, no later byte is written. |
| Raster.FillRectGap | CENG391_hw02_e01/image.cc:98-100 | Between the last column written on one row and the rectangle's first column on the next, nothing is written. |
| Raster.FillRectEmpty | CENG391_hw02_e01/image.cc:94-104 | A rectangle of non-positive width or height leaves the buffer unchanged. |
| Raster.FillRectIdempotent | CENG391_hw02_e01/image.cc:94-104 | Filling twice with the same arguments is the same as filling once. |
| Raster.ShrinkFirstCorner | CENG391_hw02_e01/image.cc:82-105 | `set_rect(-2, -2, 5, 5, 9)` on a black 10x10 gray image sets exactly the pixels of `[0,3) x [0,3)` to 9. |
| Raster.ZeroFirstLeftOfImage | ceng391_02T/image.cc:71-94 | `set_rect(-10, 0, 5, 5, 9)` asks for no pixel of a 10x10 black gray image. With the 02T/03T clipping it still fills `[0,5) x [0,5)`. With the hw02 clipping it fills nothing. |
| Raster.ZeroFirstOverfills | ceng391_02T/image.cc:71-94 | The same call with the 02T/03T clipping also sets pixel (4, 4), which lies outside the requested rectangle. |
| Raster.RgbOffByOne | ceng391_02T/image.cc:102-111 | On a 2x2 RGB image, `set_rect_rgb(2, 0, 8, 8, ...)` visits column `m_width`. In row 0 that byte is pixel (0, 1). In row 1 it is a whole pixel, from byte `m_step * m_height` (the end of the buffer) to two bytes after it. |
| Raster.RgbBoundedWritesInside | ceng391_02T/image.cc:102-111 | With the bound `i >= m_width` and a non-negative origin, each byte written is inside the buffer. It is also a channel of a pixel of the rectangle. |
| ImageBuffer.Image.ScaleupNn | CENG391_hw02_e01/image.cc:107-134 | The image takes a fresh buffer, and the same buffer is returned. Width and height are multiplied by `scale` and the stride becomes the new width. The contents are `Magnify` of the old buffer. A one-channel image stays valid. |
| Resample.NearestInside | CENG391_hw02_e01/image.cc:122 | The byte `data(i / scale)[j / scale]` that output byte `(i, j)` copies lies inside the old buffer. |
| Resample.Magnify | CENG391_hw02_e01/image.cc:107-134 | The magnified buffer has `(scale * width) * (scale * height)` bytes. For a gray image it fits the scaled geometry. |
| Resample.MagnifyAt | CENG391_hw02_e01/image.cc:120-124 | Output byte `i * step' + j` is byte `j / scale` of old row `i / scale`. |
| Resample.MagnifyBlock | CENG391_hw02_e01/image.cc:120-124 | For a gray image, every `scale x scale` block of the output equals the source pixel it magnifies. |
| Resample.ScaledRgbStrideTooShort | CENG391_hw02_e01/image.cc:108-128 | On a three-channel image, the stride left behind (the new width) is shorter than a row of pixels. |
| ImageBuffer.Image.TransformImage | ceng391_03T/image.cc:100-119 | A fresh buffer that is `Transformed` of the image's buffer. The image itself is unchanged. |
| ImageBuffer.Image.RemapRow | ceng391_03T/image.cc:104-117 | One row: the first `m_width` bytes are remapped and the rest of the row is copied. This moves the final prefix of the copy on by `m_step`. |
| ImageBuffer.Image.RemapSample | ceng391_03T/image.cc:107-115 | The sample becomes `(int)(v * alpha + c)`, saturated at 255 and at 0. No other byte changes. |
| Intensity.Trunc | ceng391_03T/image.cc:108 | The conversion to `int` truncates toward zero, from either side of 0. |
| Intensity.TransformedAt | ceng391_03T/image.cc:104-117 | Byte `j` of row `i` of the result is the remapped byte when `j < m_width`, and the original byte otherwise. |
| Intensity.TransformedRow | ceng391_03T/image.cc:104-117 | The same, for every byte of row `i` at once. |
| Intensity.TruncMono | ceng391_03T/image.cc:108 | Truncation is monotone. |
| Intensity.RemapMono | ceng391_03T/image.cc:107-115 | A non-negative contrast keeps the order of intensities. |
| Intensity.RemapBrightness | ceng391_03T/image.cc:107-115 | At contrast 1, a sample is shifted by the brightness and saturated. |
| Intensity.RemapIdentity | ceng391_03T/image.cc:107-115 | Contrast 1 and brightness 0 map every sample to itself. |
| Intensity.TransformedIdentity | ceng391_03T/image_window.cc:60-67 | At the sliders' initial values (brightness 0, contrast 100%), the returned buffer equals the image's. |
| Intensity.RemapSaturates | ceng391_03T/image.cc:110-111 | A value above 255 saturates: 250 at contrast 2 becomes 255. |
| Bytes.Decimal | CENG391_hw02_e01/image.cc:192 | The decimal text that `operator<<` writes has at least one digit, and only digits. |
| Bytes.DecimalRoundTrip | CENG391_hw02_e01/image.cc:245-251 | Accumulating the digits written for `n`, as `%d` does, gives back `n`. |
| ImageBuffer.Image.WriteRows | CENG391_hw02_e01/image.cc:193-196 | The row loop emits the first `rowLen` bytes of each row, top to bottom, which is `Pnm.Rows` of the buffer. |
| ImageBuffer.Image.WritePnm | CENG391_hw02_e01/image.cc:180-200 | hw02/03T `write_pnm`. It succeeds exactly on a one-channel image, and then emits the `P5` header and rows of `m_width` bytes. Otherwise it emits nothing. |
| ImageBuffer.Image.WritePnmRgb | ceng391_02T/image.cc:119-159 | 02T `write_pnm`. It always returns true. RGB gives `P6` with rows of `m_step` bytes, padding included. Gray gives `P5` with rows of `m_width` bytes. Any other channel count emits nothing. |
| Pnm.MagicChannels | CENG391_hw02_e01/image.cc:221-226 | `P5` announces one channel and `P6` three. |
| Pnm.Rows | CENG391_hw02_e01/image.cc:193-196 | `n` rows cut to `rowLen` bytes make `n * rowLen` bytes. |
| Pnm.RowsAt | CENG391_hw02_e01/image.cc:193-196 | Byte `p` of output row `y` is byte `p` of buffer row `y`. |
| Pnm.RowsUnpadded | CENG391_hw02_e01/image.cc:193-196 | Without padding, the rows written are the buffer itself. |
| Pnm.SkipBlanks | CENG391_hw02_e01/image.cc:228-231 | The blank loop stops at the first byte that is not a space, newline or tab. |
| Pnm.SkipBlanksSkipsBlanks | CENG391_hw02_e01/image.cc:228-231 | Every byte the blank loop passes over is a blank. |
| Pnm.FindNewline | CENG391_hw02_e01/image.cc:234-240 | The search stops at a newline or at the end of the file. |
| Pnm.FindNewlineFirst | CENG391_hw02_e01/image.cc:234-240 | No byte before the newline found is a newline. |
| Pnm.FindNewlineNone | CENG391_hw02_e01/image.cc:236-239 | Without a newline, the search runs to the end of the file. |
| Pnm.SkipComments | CENG391_hw02_e01/image.cc:233-243 | The loop stops at a byte that is not `#`. If it moved at all, it started on a `#` and what it skipped ends with a newline. The only failure is `NoImageData`. |
| Pnm.SkipCommentsLine | CENG391_hw02_e01/image.cc:233-242 | A `#` line that ends in a newline is skipped as a whole, and the loop goes on right after that newline. |
| Pnm.SkipCommentsUnterminated | CENG391_hw02_e01/image.cc:234-240 | A `#` with no newline after it before the end of the file is `NoImageData`. |
| Pnm.SkipSpace | CENG391_hw02_e01/image.cc:248 | `%d` skips white space up to a byte that is not white space, or the end. |
| Pnm.SkipSpaceSkipsSpace | CENG391_hw02_e01/image.cc:248 | Everything `%d` skips is white space. |
| Pnm.SkipSpaceTo | CENG391_hw02_e01/image.cc:248 | White space that ends at a non-space byte is skipped exactly up to that byte. |
| Pnm.DigitsEnd | CENG391_hw02_e01/image.cc:248 | The digit run ends at a non-digit byte or at the end. |
| Pnm.DigitsEndSkipsDigits | CENG391_hw02_e01/image.cc:248 | Every byte of the digit run is a digit. |
| Pnm.DigitsEndTo | CENG391_hw02_e01/image.cc:248 | Digits that end at a non-digit make a run ending exactly there. |
| Pnm.ScanInt | CENG391_hw02_e01/image.cc:248 | A successful `%d` conversion consumes at least one byte. |
| Pnm.ScanAttributes | CENG391_hw02_e01/image.cc:248-251 | `fscanf("%d %d %d")` either converts three integers and moves past them, or fails with `BadAttributes`. |
| Pnm.ScanIntSuffix | CENG391_hw02_e01/image.cc:248 | `%d` depends only on the bytes from where it starts. Two files that agree from there convert the same value, or both fail, and consume the same number of bytes. |
| Pnm.ScanAttributesSuffix | CENG391_hw02_e01/image.cc:248-251 | The same for the three conversions. The attributes are equal and the end position is moved by the same shift. |
| Pnm.ParseHeader | CENG391_hw02_e01/image.cc:209-252 | A parsed header announces one or three channels, and its data start lies within the file. |
| Pnm.FullRows | CENG391_hw02_e01/image.cc:255-261 | The row where `fread` first comes back short is the number of whole rows the remaining bytes hold. |
| Pnm.ReadRows | CENG391_hw02_e01/image.cc:254-261 | Reading succeeds exactly when the file holds `height * width * channels` bytes after the header. It then gives an image of the header's size with that many bytes. Otherwise it gives `ShortRow` on a row below the height. |
| Pnm.ReadRowsStopsAt | CENG391_hw02_e01/image.cc:255-261 | Reading fails on row `y` when the bytes left after `y` full rows are fewer than a row. |
| Pnm.DecodePnm | CENG391_hw02_e01/image.cc:202-265 | A decoded image has one or three channels and exactly `height * width * channels` bytes. |
| Pnm.ScanHeader | CENG391_hw02_e01/image.cc:209-252 | The header scan, `fgetc` by `fgetc`, gives the same result as `ParseHeader`. |
| Pnm.ReadAttributes | CENG391_hw02_e01/image.cc:248-251 | The three conversions in a row give the same result as `ScanAttributes`. |
| Pnm.SkipBlankBytes | CENG391_hw02_e01/image.cc:228-231 | The blank loop stops where `SkipBlanks` does. |
| Pnm.SkipCommentLines | CENG391_hw02_e01/image.cc:233-243 | The comment loops give the same result as `SkipComments`. |
| Pnm.ReadDigits | CENG391_hw02_e01/image.cc:248 | The digit loop stops at the end of the run and accumulates its value. |
| Pnm.ReadInt | CENG391_hw02_e01/image.cc:248 | One `%d` conversion gives the same result as `ScanInt`. |
| ImageBuffer.Image.ReadRowsFrom | CENG391_hw02_e01/image.cc:255-261 | If the file holds all rows, the buffer becomes the `height * m_step` bytes after the header. Otherwise the row where the file runs short is reported. |
| ImageBuffer.Image.ReadPnm | CENG391_hw02_e01/image.cc:202-265 | An error is the `DecodePnm` verdict on the file. On success the image is fresh, valid and unpadded, and its size, channels and bytes are `DecodePnm`'s image. |
| Pnm.HeaderRoundTrip | CENG391_hw02_e01/image.cc:191-192 | The scanner reads back every header the writer emits, and the rows begin right after its final newline. |
| Pnm.DecodeAfterHeader | CENG391_hw02_e01/image.cc:202-265 | After a written header, the reader takes the first `height * width * channels` bytes that follow, or reports the first row they cannot fill. |
| Pnm.PnmRoundTrip | CENG391_hw02_e01/image.cc:180-200 | A file written with rows of `width * channels` bytes decodes to the image's size, its channel count and its rows without padding. |
| Pnm.GrayRoundTrip | CENG391_hw02_e01/image.cc:180-200 | An unpadded gray image survives a write followed by a read. |
| Pnm.DecodeSameRows | CENG391_hw02_e01/image.cc:245-261 | Two files whose headers differ only in where the pixels start, and whose bytes from there on agree, decode to the same result. |
| Pnm.ParseCommentLine | CENG391_hw02_e01/image.cc:202-252 | A written header with one `#` comment line put after the magic number parses to the same header. Only the data start moves by the comment's length. |
| Pnm.DecodeCommentLine | CENG391_hw02_e01/image.cc:202-265 | Such a comment line does not change what the file decodes to, for any pixel bytes. |
| Pnm.DecodeBadMagic | CENG391_hw02_e01/image.cc:216-219 | A file that does not start with `P5` or `P6` is rejected with `BadMagic`. |
| Pnm.DecodeUnterminatedComment | CENG391_hw02_e01/image.cc:236-240 | A `#` comment right after the magic line (`P5` or `P6` and a newline) that never reaches a newline is rejected with `NoImageData`. The general case is `SkipCommentsUnterminated`. |
| Pnm.DecodeTwoAttributes | CENG391_hw02_e01/image.cc:248-251 | A file that ends right after the magic line, the two written dimensions and a newline is rejected with `BadAttributes`. (With more bytes, the third `%d` may read pixel data as the maximum value.) |
| Pnm.PaddedRgbMisread | ceng391_02T/image.cc:132-137 | A 1x2 RGB image with a stride of 4, written by the 02T writer, reads back as the first 6 bytes of its buffer. That differs from its pixels whenever the padding byte differs from the next red byte. |

## Left out

- Bilinear magnification (`scaleup_bilinear`) and the rotations (`rotate_bilinear`, `rotate_full_bilinear`, `rotate_cord`, `calculate_window_size`, `interpolate_bilinear`) are left out. They are floating-point resampling outside this core.
- The Qt window `ceng391_03T/image_window.cc` is left out. Only the slider start values it passes to `transformImage` are used, in `TransformedIdentity`.
- The test driver `ceng391_02T/image_test.cc` is left out. Its Bayer loop's `set_rect_rgb` calls with `x == m_width` are the input of `RgbOffByOne`.
- `image.h` is not part of this model. The `data(y)` accessor is written out as `j * m_step`. The constructor's default `step` is taken to be 0, so `new_gray`, `new_rgb` and `read_pnm` get unpadded rows.
- Files are byte sequences, so opening, closing, file names and the `.pgm`/`.ppm` extensions are not modelled. Messages to `cerr`/`stderr` are not modelled either.
- Each `exit(EXIT_FAILURE)` of `read_pnm` becomes an error value of `Pnm.Result`. A write failure of the output stream is not modelled.
- The destructor and the `delete` of the old buffer in `scaleup_nn` are not modelled, because memory management is outside the model.
- Integers are unbounded. The overflow of the source's 32-bit `int` for huge dimensions, or for `%d` text too long for an `int`, is not modelled.
- ImageBuffer.Image.TransformImage computes `v * alpha + c` over the reals. The rounding of `float` arithmetic is not modelled, and neither is a `float` too large for `int`.
- ImageBuffer.Image.ScaleupNn requires `0 <= scale`. With a negative scale the source stores negative dimensions, which no valid image has.
- ImageBuffer.Image.ScaleupNn promises a valid image afterwards only for one channel. On RGB the source leaves a stride shorter than a row (`ScaledRgbStrideTooShort`).
- ImageBuffer.Image.SetRectRgb requires, on an RGB image, a non-negative origin and a rectangle that ends inside the width. The loops at `ceng391_02T/image.cc:102-111` index `row_data[i * 3 + c]` without clipping a negative origin, and with a column bound that is off by one (they break at `j >= m_height` and at `i > m_width`), so outside that requires they write bytes that are not pixels of the rectangle. Many of those writes are inside the buffer and well defined, but the model does not capture them:
  - When `x <= m_width < x + width`, column `m_width` is written. (When `x > m_width`, the column loop breaks on its first `i` and writes nothing.) On an unpadded image that is the first pixel of the next row, which is what the Bayer calls at `ceng391_02T/image_test.cc:67-71` cause. On a padded image it is the row's padding bytes, followed by the first bytes of the next row when the padding is shorter than a pixel.
  - When `x < 0` on a row `j >= 1`, the negative columns write the tail of row `j - 1`.
  - Only writes before byte 0 (a negative `x` on row 0, or a negative `y`) or from byte `m_step * m_height` on (column `m_width` of an unpadded last row) fall outside the buffer and are undefined behaviour.
  - `RgbOffByOne` exhibits the first and the last of these cases. It is the only member that covers these writes.
- Pnm.DecodePnm and ImageBuffer.Image.ReadPnm report any negative width or height as `NegativeDimension` and return no image. The source (`CENG391_hw02_e01/image.cc:254-264`) passes the values on to the constructor. What then happens depends on the signs:
  - When the row loop does not run, the source returns an image of negative size. Examples are `P5 0 -3 255` and a negative width with a height of 0 or less.
  - A positive width with a negative height makes `new uchar[]` get a negative size (`image.cc:64`), which throws.
  - A negative width with a positive height raises the stride to the default step 0, so the buffer has 0 bytes. Each row is then read with a negative length, which `fread` takes as a huge `size_t`, into that buffer.
- ImageBuffer.Image.ReadPnm: `%d` is modelled as white space, an optional sign and decimal digits. Locale rules are not modelled.
- ImageBuffer.Image.ReadPnm: the maximum value is parsed and then ignored, as in the source.
- ImageBuffer.Image.ReadPnm: when `fread` comes back short, the bytes it did read are not modelled, because the source then exits.
- The constructor leaves the buffer's contents unspecified, as `new uchar[]` does.

## Findings

| source | as written | input that shows it | evidently intended | confidence | as-written member | corrected member |
|---|---|---|---|---|---|---|
| ceng391_02T/image.cc:132-137 | The `P6` writer streams `m_step` bytes per row, padding included, while the reader takes `width * 3` bytes per row. | An RGB image 1 wide and 2 high built with step 4. The reader takes byte 3 (padding) as the red of pixel (0, 1). | Rows of `m_width * m_n_channels` bytes, as the `P5` branch does. | medium, not executed | Pnm.PaddedRgbMisread | Pnm.PnmRoundTrip |
| ceng391_02T/image.cc:73-81 | `x = 0` runs before `width += x`, so the extent is never shrunk by the overhang (the same holds for `y`). | `set_rect(-2, -2, 5, 5, 9)` on a 10x10 gray image also sets pixel (4, 4). | Shrink first, then move the origin, as the hw02 copies do. | high, not executed | Raster.ZeroFirstOverfills | Raster.ClipShrinkFirst |
| ceng391_02T/image.cc:107 | The column loop breaks only when `i > m_width`, so column `m_width` is written. | `set_rect_rgb(2, 0, 8, 8, ...)` on a 2x2 RGB image writes pixel (0, 1), and a whole pixel past the end of the buffer. | `i >= m_width`, as in `set_rect`. | high, not executed | Raster.RgbOffByOne | Raster.RgbBoundedWritesInside |

=== FILE: arith.dfy ===
/** Facts about row-major addressing that the solver does not find on its own:
    the offset `row * step + col` of a byte in a strided buffer, and its
    decomposition back into a row and a column by `/` and `%`. */
module Arith {

  /** `a * b` grows with `a` when `b` is not negative. */
  lemma MulLeMono(a: int, a': int, b: int)
    requires a <= a' && 0 <= b
    ensures a * b <= a' * b
  {
    var d := a' - a;
    assert a' * b == a * b + d * b;
    assert d * b >= 0;
  }

  /** Moving from `a` to a larger `a'` adds at least one more `b` to `a * b`. */
  lemma MulLtStep(a: int, a': int, b: int)
    requires a < a' && 0 <= b
    ensures a * b + b <= a' * b
  {
    MulLeMono(a + 1, a', b);
    assert (a + 1) * b == a * b + b;
  }

  /** A byte in row `row < rows` of a buffer with `rows` rows of `step` bytes lies inside it. */
  lemma RowMajorBound(row: int, col: int, step: int, rows: int)
    requires 0 <= row < rows && 0 <= col < step
    ensures 0 <= row * step + col < rows * step
  {
    MulLeMono(row + 1, rows, step);
    assert (row + 1) * step == row * step + step;
    assert row * step >= 0;
  }

  /** Division with remainder is unique: the quotient and remainder of `n` by `d`
      are the only pair with `n == q * d + r` and `0 <= r < d`. */
  lemma DivModUnique(n: int, d: int, q: int, r: int)
    requires 0 < d && 0 <= r < d && n == q * d + r
    ensures n / d == q && n % d == r
  {
    var q', r' := n / d, n % d;
    assert n == q' * d + r';
    if q < q' {
      MulLtStep(q, q', d);
    } else if q' < q {
      MulLtStep(q', q, d);
    }
  }

  /** The byte at `row * step + col` (with `col < step`) is in row `row` at column `col`. */
  lemma Decompose(row: int, col: int, step: int)
    requires 0 < step && 0 <= col < step
    ensures (row * step + col) / step == row
    ensures (row * step + col) % step == col
  {
    DivModUnique(row * step + col, step, row, col);
  }

  /** Every non-negative offset is `row * step + col` for its own row and column. */
  lemma Recompose(k: int, step: int)
    requires 0 < step && 0 <= k
    ensures k == (k / step) * step + k % step
    ensures 0 <= k % step < step && 0 <= k / step
  {
  }

  /** Channel `c` of pixel `i` sits at `i * n + c` within a row, and that is below
      `w * n` exactly when the pixel is one of the first `w`. */
  lemma PixelInRow(i: int, c: int, n: int, w: int)
    requires 0 <= i && 0 <= c < n
    ensures (i * n + c) / n == i && (i * n + c) % n == c
    ensures i * n + c < w * n <==> i < w
  {
    Decompose(i, c, n);
    if i < w {
      MulLeMono(i + 1, w, n);
      assert (i + 1) * n == i * n + n;
    } else {
      MulLeMono(w, i, n);
    }
  }

  /** An offset `k` in a row holds a pixel of the first `w` exactly when its pixel index is below `w`. */
  lemma PixelIndexBelow(p: int, n: int, w: int)
    requires 0 <= p && 0 < n
    ensures p < w * n <==> p / n < w
  {
    PixelInRow(p / n, p % n, n, w);
  }

  /** A row index computed from an offset inside a buffer of `rows` rows is a row of it. */
  lemma RowBelow(k: int, step: int, rows: int)
    requires 0 < step && 0 <= k < rows * step
    ensures k / step < rows
  {
    Recompose(k, step);
    if k / step >= rows {
      MulLeMono(rows, k / step, step);
    }
  }

  /** A positive product of non-negative factors has a positive second factor. */
  lemma ProductPositive(a: int, b: int)
    requires 0 <= a && 0 <= b && 0 < a * b
    ensures 0 < b
  {
  }

  /** An index below `scale * n` comes from a positive scale, and dividing it
      by the scale gives an index below `n`. */
  lemma ScaledDown(i: int, scale: int, n: int)
    requires 0 <= scale && 0 <= n && 0 <= i < scale * n
    ensures 0 < scale && i / scale < n
  {
    ProductPositive(n, scale);
    assert scale * n == n * scale;
    RowBelow(i, scale, n);
  }
}

=== FILE: bytes.dfy ===
/** Bytes, the ASCII characters the PNM header uses, and the decimal text of a
    number as `operator<<` writes it and `%d` reads it back. */
module Bytes {

  /** An unsigned 8-bit sample (`uchar`). */
  type byte = x: int | 0 <= x < 256

  const TAB: byte := 9
  const LF: byte := 10
  const VT: byte := 11
  const FF: byte := 12
  const CR: byte := 13
  const SPACE: byte := 32
  const HASH: byte := 35
  const PLUS: byte := 43
  const MINUS: byte := 45
  const ZERO: byte := 48
  const UPPER_P: byte := 80

  predicate IsDigit(b: byte) {
    ZERO <= b < ZERO + 10
  }

  /** The white-space class of C's `isspace`, which `%d` and a blank in a
      `scanf` format skip. */
  predicate IsCSpace(b: byte) {
    b == SPACE || b == TAB || b == LF || b == VT || b == FF || b == CR
  }

  /** The decimal digits of `n`, most significant first, without leading zeros. */
  function Decimal(n: nat): (r: seq<byte>)
    ensures 1 <= |r|
    ensures forall i :: 0 <= i < |r| ==> IsDigit(r[i])
    decreases n
  {
    if n < 10 then [ZERO + n] else Decimal(n / 10) + [ZERO + n % 10]
  }

  /** The number the decimal digits `s[k..e]` denote, accumulated from the
      left as `%d` does: each digit multiplies what came before by ten. */
  function DigitsValue(s: seq<byte>, k: nat, e: nat): int
    requires k <= e <= |s|
    decreases e
  {
    if e == k then 0 else DigitsValue(s, k, e - 1) * 10 + (s[e - 1] - ZERO)
  }

  /** Reading back the digits written for `n`, wherever they sit, gives `n`. */
  lemma {:induction false} DecimalRoundTrip(s: seq<byte>, j: nat, n: nat)
    requires j + |Decimal(n)| <= |s|
    requires forall t :: 0 <= t < |Decimal(n)| ==> s[j + t] == Decimal(n)[t]
    ensures DigitsValue(s, j, j + |Decimal(n)|) == n
    decreases n
  {
    var ds := Decimal(n);
    if n >= 10 {
      var front := Decimal(n / 10);
      assert ds == front + [ZERO + n % 10];
      forall t | 0 <= t < |front|
        ensures s[j + t] == front[t]
      {
        assert s[j + t] == ds[t];
      }
      DecimalRoundTrip(s, j, n / 10);
      assert s[j + |ds| - 1] == ds[|ds| - 1];
    } else {
      assert s[j + 0] == ds[0];
    }
  }
}

=== FILE: image.dfy ===
/** The `ceng391::Image` class: a strided byte buffer with its geometry, and the
    operations that fill, magnify, remap, write and read it. Each method is
    proved against the specification functions of Raster, Resample, Intensity
    and Pnm. */
module ImageBuffer {
  import opened Bytes
  import opened Raster
  import Resample
  import Intensity
  import Pnm
  import Arith

  class Image {
    var width: int
    var height: int
    var nChannels: int
    var step: int
    var data: array<byte>

    /** The geometry of the image as the layout functions see it. */
    function Geom(): Geometry
      reads this
    {
      Geometry(width, height, nChannels, step)
    }

    /** An image has at least one channel, rows hold all channels of their
        pixels, and the buffer holds `m_step * m_height` bytes. */
    ghost predicate Valid()
      reads this
    {
      GeometryOk(Geom()) && 1 <= nChannels && data.Length == step * height
    }

    /** `Image(width, height, n_channels, step)`: the stride is
        `width * n_channels`, raised to `step` when that is larger; the buffer
        is allocated and its contents are left as they come. */
    constructor (width: int, height: int, nChannels: int, step: int)
      requires 0 <= width && 0 <= height && 1 <= nChannels
      ensures Valid() && fresh(data)
      ensures this.width == width && this.height == height && this.nChannels == nChannels
      ensures this.step == Stride(width, nChannels, step)
    {
      this.width := width;
      this.height := height;
      this.nChannels := nChannels;
      var s := width * nChannels;
      if s < step {
        s := step;
      }
      Arith.MulLeMono(0, width, nChannels);
      Arith.MulLeMono(0, s, height);
      this.step := s;
      data := new byte[s * height];
    }

    /** `new_gray`: a one-channel image with rows of exactly `width` bytes. */
    static method NewGray(width: int, height: int) returns (img: Image)
      requires 0 <= width && 0 <= height
      ensures fresh(img) && fresh(img.data) && img.Valid()
      ensures img.width == width && img.height == height
      ensures img.nChannels == 1 && img.step == width
    {
      img := new Image(width, height, 1, 0);
    }

    /** `new_rgb`: a three-channel image with rows of exactly `3 * width` bytes. */
    static method NewRgb(width: int, height: int) returns (img: Image)
      requires 0 <= width && 0 <= height
      ensures fresh(img) && fresh(img.data) && img.Valid()
      ensures img.width == width && img.height == height
      ensures img.nChannels == 3 && img.step == 3 * width
    {
      img := new Image(width, height, 3, 0);
    }

    /** The fill loops shared by `set_rect` and `set_rect_rgb`, once the origin
        is non-negative: rows from `r.y` while below `r.y + r.h` and the image
        height, columns from `r.x` while below `r.x + r.w` and `colLimit`, and
        every channel of each visited pixel. `set_rect` stops the columns at
        `m_width`; `set_rect_rgb` only at `m_width + 1`, which is harmless when
        the rectangle ends inside the image. */
    method Fill(r: Rect, colour: seq<byte>, colLimit: int)
      requires Valid() && 0 <= r.x && 0 <= r.y && |colour| == nChannels
      requires colLimit == width || (colLimit == width + 1 && r.x + r.w <= width)
      modifies data
      ensures Valid()
      ensures data[..] == FillRect(old(data[..]), Geom(), r, colour)
    {
      ghost var d0 := data[..];
      ghost var target := FillRect(d0, Geom(), r, colour);
      FillRectBefore(d0, Geom(), r, colour);
      var j := r.y;
      ghost var start := j * step + r.x * nChannels;
      while j < r.y + r.h
        invariant r.y <= j && start == j * step + r.x * nChannels
        invariant forall k :: 0 <= k < data.Length ==> data[k] == if k < start then target[k] else d0[k]
        decreases r.y + r.h - j
      {
        if j >= height {
          break;
        }
        FillRow(r, colour, colLimit, j, start, d0, target);
        assert (j + 1) * step == j * step + step;
        start := start + step;
        j := j + 1;
      }
      FillRectAfter(d0, Geom(), r, colour, j);
      assert data[..] == target;
    }

    /** Row `j` of the fill loops. The bytes of the buffer are written in
        increasing order, so the loops keep this invariant: every byte below the
        next one written (`start`, then `done`) holds its final value, every
        byte from it on is as it was. One row moves it from column `r.x` of row
        `j` to column `r.x` of row `j + 1`, `m_step` bytes on. */
    method FillRow(r: Rect, colour: seq<byte>, colLimit: int, j: int, ghost start: int, ghost d0: seq<byte>, ghost target: seq<byte>)
      requires Valid() && 0 <= r.x && 0 <= r.y && |colour| == nChannels
      requires colLimit == width || (colLimit == width + 1 && r.x + r.w <= width)
      requires r.y <= j < r.y + r.h && j < height && start == j * step + r.x * nChannels
      requires |d0| == data.Length && target == FillRect(d0, Geom(), r, colour)
      requires forall k :: 0 <= k < data.Length ==> data[k] == if k < start then target[k] else d0[k]
      modifies data
      ensures forall k :: 0 <= k < data.Length ==> data[k] == if k < start + step then target[k] else d0[k]
    {
      ghost var g := Geom();
      ghost var rowBase := j * step;
      ghost var done := start;
      var i := r.x;
      while i < r.x + r.w
        invariant r.x <= i && (i <= width || i == r.x)
        invariant done == rowBase + i * nChannels
        invariant forall k :: 0 <= k < data.Length ==> data[k] == if k < done then target[k] else d0[k]
        decreases r.x + r.w - i
      {
        if i >= colLimit {
          break;
        }
        FillPixel(r, colour, i, j, done, d0, target);
        assert (i + 1) * nChannels == i * nChannels + nChannels;
        done := done + nChannels;
        i := i + 1;
      }
      FillRectGap(d0, g, r, colour, j, i);
    }

    /** The channel loop of the fill for pixel `(i, j)` of the rectangle, whose
        first byte is at `at`: it moves the next byte written on by
        `n_channels`, to the pixel on its right. */
    method FillPixel(r: Rect, colour: seq<byte>, i: int, j: int, ghost at: int, ghost d0: seq<byte>, ghost target: seq<byte>)
      requires Valid() && |colour| == nChannels
      requires InRect(r, i, j) && 0 <= i < width && 0 <= j < height && at == j * step + i * nChannels
      requires |d0| == data.Length && target == FillRect(d0, Geom(), r, colour)
      requires forall k :: 0 <= k < data.Length ==> data[k] == if k < at then target[k] else d0[k]
      modifies data
      ensures forall k :: 0 <= k < data.Length ==> data[k] == if k < at + nChannels then target[k] else d0[k]
    {
      var base := j * step + i * nChannels;
      var c := 0;
      while c < nChannels
        invariant 0 <= c <= nChannels
        invariant forall k :: 0 <= k < data.Length ==> data[k] == if k < base + c then target[k] else d0[k]
      {
        FillRectPixel(d0, Geom(), r, colour, i, j, c);
        data[base + c] := colour[c];
        c := c + 1;
      }
    }

    /** `set_rect` of the hw02 copies: a negative origin is clipped by first
        shrinking the extent, then moving the origin to 0; every channel of each
        pixel of the clipped rectangle inside the image becomes `value`. */
    method SetRect(x: int, y: int, width: int, height: int, value: byte)
      requires Valid()
      modifies data
      ensures Valid()
      ensures data[..] == FillRect(old(data[..]), Geom(), ClipShrinkFirst(x, y, width, height), Solid(value, nChannels))
    {
      var x, y, width, height := x, y, width, height;
      if x < 0 {
        width := width + x;
        x := 0;
      }
      if y < 0 {
        height := height + y;
        y := 0;
      }
      Fill(Rect(x, y, width, height), Solid(value, nChannels), this.width);
    }

    /** `set_rect` of the 02T and 03T copies: the origin is moved to 0 before the
        extent is adjusted, so the extent is never shrunk. */
    method SetRectZeroFirst(x: int, y: int, width: int, height: int, value: byte)
      requires Valid()
      modifies data
      ensures Valid()
      ensures data[..] == FillRect(old(data[..]), Geom(), ClipZeroFirst(x, y, width, height), Solid(value, nChannels))
    {
      var x, y, width, height := x, y, width, height;
      if x < 0 {
        x := 0;
        width := width + x;
      }
      if y < 0 {
        y := 0;
        height := height + y;
      }
      Fill(Rect(x, y, width, height), Solid(value, nChannels), this.width);
    }

    /** `set_rect_rgb` (02T): on a gray image, `set_rect` with the average of the
        three levels; on an RGB image, the fill loops with channel `c` set to the
        `c`-th level and no clipping of the origin; otherwise nothing changes. */
    method SetRectRgb(x: int, y: int, width: int, height: int, red: byte, green: byte, blue: byte)
      requires Valid()
      requires nChannels == 3 ==> 0 <= x && 0 <= y && x + width <= this.width
      modifies data
      ensures Valid()
      ensures nChannels == 1 ==>
        data[..] == FillRect(old(data[..]), Geom(), ClipZeroFirst(x, y, width, height), [AverageGray(red, green, blue)])
      ensures nChannels == 3 ==>
        data[..] == FillRect(old(data[..]), Geom(), Rect(x, y, width, height), [red, green, blue])
      ensures nChannels != 1 && nChannels != 3 ==> data[..] == old(data[..])
    {
      if nChannels == 1 {
        SetRectZeroFirst(x, y, width, height, AverageGray(red, green, blue));
        assert Solid(AverageGray(red, green, blue), 1) == [AverageGray(red, green, blue)];
      } else if nChannels == 3 {
        Fill(Rect(x, y, width, height), [red, green, blue], this.width + 1);
      }
    }
  
    /** `scaleup_nn(scale)`: a new buffer of `scale * m_width` by
        `scale * m_height` bytes, first zeroed and then filled with the nearest
        source byte, replaces the image's buffer; the stride becomes the new
        width and the new buffer is returned. Only a one-channel image keeps a
        valid layout (`ScaledRgbStrideTooShort`). */
    method ScaleupNn(scale: int) returns (scaled: array<byte>)
      requires Valid() && 0 <= scale
      modifies this
      ensures fresh(scaled) && data == scaled
      ensures width == scale * old(width) && height == scale * old(height)
      ensures nChannels == old(nChannels) && step == width
      ensures scaled[..] == Resample.Magnify(old(data[..]), old(Geom()), scale)
      ensures old(nChannels) == 1 ==> Valid()
    {
      ghost var d0 := data[..];
      ghost var g := Geom();
      var h', w' := scale * height, scale * width;
      var st := w';
      Arith.MulLeMono(0, scale, width);
      Arith.MulLeMono(0, scale, height);
      Arith.MulLeMono(0, h', st);
      scaled := new byte[st * h'];
      assert scaled.Length == h' * st;
      for i := 0 to h'
        modifies scaled
      {
        for j := 0 to w'
          modifies scaled
        {
          Arith.RowMajorBound(i, j, st, h');
          scaled[i * st + j] := 0;
        }
      }
      ghost var target := Resample.Magnify(d0, g, scale);
      ghost var done := 0;
      for i := 0 to h'
        modifies scaled
        invariant done == i * st && 0 <= done <= scaled.Length
        invariant forall k :: 0 <= k < done ==> scaled[k] == target[k]
      {
        Arith.MulLtStep(i, h', st);
        for j := 0 to w'
          modifies scaled
          invariant done == i * st + j
          invariant forall k :: 0 <= k < done ==> scaled[k] == target[k]
        {
          Resample.MagnifyAt(d0, g, scale, i, j);
          Resample.NearestInside(g, scale, i, j);
          var at := i * st + j;
          assert at == done == i * (scale * g.width) + j;
          scaled[at] := data[(i / scale) * step + j / scale];
          done := done + 1;
        }
        assert done == (i + 1) * st;
      }
      assert scaled[..] == target;
      step, height, width := st, h', w';
      data := scaled;
    }

    /** `transformImage(alpha, c)` (03T): a copy of the buffer in which the first
        `m_width` bytes of every row are remapped to `(int)(v * alpha + c)`
        clamped to `[0, 255]`; the image itself is left unchanged. */
    method TransformImage(alpha: real, c: int) returns (datam: array<byte>)
      requires Valid()
      ensures fresh(datam)
      ensures datam[..] == Intensity.Transformed(data[..], Geom(), alpha, c)
    {
      ghost var d := data[..];
      ghost var target := Intensity.Transformed(d, Geom(), alpha, c);
      datam := new byte[step * height];
      forall k | 0 <= k < datam.Length {
        datam[k] := data[k];
      }
      assert datam.Length == height * step;
      ghost var start := 0;
      for i := 0 to height
        invariant start == i * step
        invariant forall k :: 0 <= k < datam.Length ==> datam[k] == if k < start then target[k] else d[k]
      {
        Intensity.TransformedRow(d, Geom(), alpha, c, i);
        RemapRow(datam, i * step, alpha, c, d, target);
        assert (i + 1) * step == i * step + step;
        start := start + step;
      }
      assert datam[..] == target;
    }

    /** The row of the loop of `transformImage` that starts at byte `start` of
        the copy `datam`: its first `m_width` bytes are remapped in turn, which
        moves the end of the final part of `datam` on by `m_step`. */
    method RemapRow(datam: array<byte>, start: int, alpha: real, c: int, ghost d: seq<byte>, ghost target: seq<byte>)
      requires Valid() && 0 <= start && start + step <= datam.Length
      requires |d| == |target| == datam.Length
      requires forall k :: start <= k < start + step ==>
        target[k] == if k < start + width then Intensity.Remap(d[k], alpha, c) else d[k]
      requires forall k :: 0 <= k < datam.Length ==> datam[k] == if k < start then target[k] else d[k]
      modifies datam
      ensures forall k :: 0 <= k < datam.Length ==> datam[k] == if k < start + step then target[k] else d[k]
    {
      Arith.MulLeMono(1, nChannels, width);
      for j := 0 to width
        invariant forall k :: 0 <= k < datam.Length ==> datam[k] == if k < start + j then target[k] else d[k]
      {
        RemapSample(datam, start + j, alpha, c);
      }
    }

    /** The body of the loop of `transformImage`: the sample at `at` becomes
        `(int)(v * alpha + c)`, saturated at 255 and at 0. */
    static method RemapSample(datam: array<byte>, at: int, alpha: real, c: int)
      requires 0 <= at < datam.Length
      modifies datam
      ensures datam[at] == Intensity.Remap(old(datam[at]), alpha, c)
      ensures forall k :: 0 <= k < datam.Length && k != at ==> datam[k] == old(datam[k])
    {
      var rowInt := Intensity.Trunc(datam[at] as real * alpha + c as real);
      if rowInt > 255 {
        datam[at] := 255;
      } else if rowInt < 0 {
        datam[at] := 0;
      } else {
        datam[at] := rowInt;
      }
    }

    /** The row loop of `write_pnm`: the first `rowLen` bytes of every row, top
        to bottom. */
    method WriteRows(rowLen: int) returns (out: seq<byte>)
      requires Valid() && 0 <= rowLen <= step
      ensures out == Pnm.Rows(data[..], step, rowLen, height)
    {
      out := [];
      var y := 0;
      while y < height
        invariant 0 <= y <= height && y * step <= data.Length
        invariant out == Pnm.Rows(data[..], step, rowLen, y)
      {
        Arith.MulLtStep(y, height, step);
        assert height * step == data.Length;
        Pnm.RowsNext(data[..], step, rowLen, y);
        out := out + data[y * step .. y * step + rowLen];
        y := y + 1;
      }
    }

    /** `write_pnm` of the hw02 and 03T copies: only a one-channel image is
        written, as a binary PGM (`P5`) header followed by the `m_width` image
        bytes of every row; any other image is refused. */
    method WritePnm() returns (ok: bool, out: seq<byte>)
      requires Valid()
      ensures ok <==> nChannels == 1
      ensures ok ==> out == Pnm.PnmFile(Pnm.FIVE, width, height, data[..], step, width)
      ensures !ok ==> out == []
    {
      if nChannels != 1 {
        return false, [];
      }
      var rows := WriteRows(width);
      return true, Pnm.Header(Pnm.FIVE, width, height) + rows;
    }

    /** `write_pnm` of the 02T copy: a three-channel image is written as a binary
        PPM (`P6`) with rows of `m_step` bytes, padding included; a one-channel
        image as a PGM with rows of `m_width` bytes; any other image writes
        nothing. The result is true in every case. */
    method WritePnmRgb() returns (ok: bool, out: seq<byte>)
      requires Valid()
      ensures ok
      ensures nChannels == 3 ==> out == Pnm.PnmFile(Pnm.SIX, width, height, data[..], step, step)
      ensures nChannels == 1 ==> out == Pnm.PnmFile(Pnm.FIVE, width, height, data[..], step, width)
      ensures nChannels != 1 && nChannels != 3 ==> out == []
    {
      out := [];
      if nChannels == 3 {
        var rows := WriteRows(step);
        out := Pnm.Header(Pnm.SIX, width, height) + rows;
      } else if nChannels == 1 {
        var rows := WriteRows(width);
        out := Pnm.Header(Pnm.FIVE, width, height) + rows;
      }
      ok := true;
    }

    /** The row loop of `read_pnm`: `m_width * m_n_channels` bytes of `file`
        from `start` on go into each row in turn, until a row cannot be filled
        because the file ends; `y` is then that row. */
    method ReadRowsFrom(file: seq<byte>, start: nat) returns (complete: bool, y: int)
      requires Valid() && step == width * nChannels && start <= |file|
      modifies data
      ensures Valid()
      ensures complete ==> start + height * step <= |file| && data[..] == file[start .. start + height * step]
      ensures !complete ==> 0 <= y < height && y * step <= |file| - start < y * step + step
    {
      assert height * step == data.Length;
      var filled := 0;
      y := 0;
      while y < height
        invariant 0 <= y <= height
        invariant filled == y * step && 0 <= filled <= data.Length && start + filled <= |file|
        invariant forall k :: 0 <= k < filled ==> data[k] == file[start + k]
      {
        var at := start + filled;
        if |file| - at < step {
          return false, y;
        }
        Arith.MulLtStep(y, height, step);
        assert at + step <= |file| && filled + step <= data.Length;
        forall p | 0 <= p < step {
          data[filled + p] := file[at + p];
        }
        assert (y + 1) * step == filled + step;
        y, filled := y + 1, filled + step;
      }
      Arith.MulLeMono(height, y, step);
      assert data[..] == file[start .. start + height * step];
      return true, y;
    }

    /** `read_pnm`: the header is scanned, an image of the parsed size and channel
        count is allocated, and `width * channels` bytes are read into each row.
        Where the code reports an error and exits, the result is the error. */
    static method ReadPnm(file: seq<byte>) returns (res: Pnm.Result<Image>)
      ensures res.Fail? ==> Pnm.DecodePnm(file) == Pnm.Fail(res.error)
      ensures res.Ok? ==> fresh(res.value) && fresh(res.value.data) && res.value.Valid()
      ensures res.Ok? ==> res.value.step == res.value.width * res.value.nChannels
      ensures res.Ok? ==>
        Pnm.DecodePnm(file) == Pnm.Ok(Pnm.PnmImage(res.value.width, res.value.height, res.value.nChannels, res.value.data[..]))
    {
      var header := Pnm.ScanHeader(file);
      if header.Fail? {
        return Pnm.Fail(header.error);
      }
      var h := header.value;
      Pnm.DecodeParsed(file, h);
      if h.width < 0 || h.height < 0 {
        return Pnm.Fail(Pnm.NegativeDimension);
      }
      var img := new Image(h.width, h.height, h.channels, 0);
      Arith.MulLeMono(0, h.width, h.channels);
      assert img.step == h.width * h.channels;
      var complete, y := img.ReadRowsFrom(file, h.dataStart);
      if !complete {
        Pnm.ReadRowsStopsAt(file, h, y);
        return Pnm.Fail(Pnm.ShortRow(y));
      }
      Pnm.ReadRowsComplete(file, h);
      return Pnm.Ok(img);
    }
  }
}

=== FILE: intensity.dfy ===
/** The linear brightness/contrast remap of `transformImage`, stated over byte
    sequences. The `float` arithmetic of the source is modelled with reals. */
module Intensity {
  import opened Bytes
  import opened Raster
  import Arith

  /** C's conversion of a floating value to `int`: truncation toward zero. */
  function Trunc(r: real): (t: int)
    ensures 0.0 <= r ==> t as real <= r < t as real + 1.0
    ensures r < 0.0 ==> t as real - 1.0 < r <= t as real
  {
    if 0.0 <= r then r.Floor else -((-r).Floor)
  }

  /** The three-way clamp of the loop body: above 255 saturates, below 0 is 0. */
  function Clamp(v: int): byte {
    if v > 255 then 255 else if v < 0 then 0 else v
  }

  /** The new value of one sample `v`: `(int)(v * alpha + c)` clamped to a byte. */
  function Remap(v: byte, alpha: real, c: int): byte {
    Clamp(Trunc(v as real * alpha + c as real))
  }

  /** The buffer `transformImage` returns: a copy of `d` in which the first
      `m_width` bytes of every row are remapped; the rest of each row (padding,
      and on a multi-channel image the later bytes of the pixels) keeps its value. */
  function Transformed(d: seq<byte>, g: Geometry, alpha: real, c: int): (e: seq<byte>)
    ensures |e| == |d|
  {
    seq(|d|, k requires 0 <= k < |d| =>
      if 0 < g.step && k % g.step < g.width then Remap(d[k], alpha, c) else d[k])
  }

  /** Byte `j` of row `i` of the result: remapped when `j < m_width`, copied otherwise. */
  lemma TransformedAt(d: seq<byte>, g: Geometry, alpha: real, c: int, i: int, j: int)
    requires Fits(g, d) && 0 <= i < g.height && 0 <= j < g.step
    ensures 0 <= i * g.step + j < |d|
    ensures Transformed(d, g, alpha, c)[i * g.step + j]
         == if j < g.width then Remap(d[i * g.step + j], alpha, c) else d[i * g.step + j]
  {
    Arith.RowMajorBound(i, j, g.step, g.height);
    Arith.Decompose(i, j, g.step);
  }

  /** Row `i` of the result, byte by byte: its first `m_width` bytes are
      remapped and the rest of its `m_step` bytes are copied. */
  lemma TransformedRow(d: seq<byte>, g: Geometry, alpha: real, c: int, i: int)
    requires Fits(g, d) && 0 <= i < g.height
    ensures 0 <= i * g.step && i * g.step + g.step <= |d|
    ensures forall k :: i * g.step <= k < i * g.step + g.step ==>
      Transformed(d, g, alpha, c)[k] == if k < i * g.step + g.width then Remap(d[k], alpha, c) else d[k]
  {
    Arith.MulLtStep(i, g.height, g.step);
    Arith.MulLeMono(0, i, g.step);
    assert g.height * g.step == |d|;
    forall k | i * g.step <= k < i * g.step + g.step
      ensures Transformed(d, g, alpha, c)[k] == if k < i * g.step + g.width then Remap(d[k], alpha, c) else d[k]
    {
      TransformedAt(d, g, alpha, c, i, k - i * g.step);
    }
  }

  /** Truncation is monotone. */
  lemma TruncMono(r: real, s: real)
    requires r <= s
    ensures Trunc(r) <= Trunc(s)
  {
  }

  /** A non-negative contrast keeps the order of intensities. */
  lemma RemapMono(v: byte, w: byte, alpha: real, c: int)
    requires v <= w && 0.0 <= alpha
    ensures Remap(v, alpha, c) <= Remap(w, alpha, c)
  {
    assert v as real * alpha <= w as real * alpha;
    TruncMono(v as real * alpha + c as real, w as real * alpha + c as real);
  }

  /** A contrast of 1 shifts each sample by the brightness and saturates. */
  lemma RemapBrightness(v: byte, c: int)
    ensures Remap(v, 1.0, c) == Clamp(v + c)
  {
    assert v as real * 1.0 + c as real == (v + c) as real;
  }

  /** Contrast 1 and brightness 0 is the identity on every sample value. */
  lemma RemapIdentity(v: byte)
    ensures Remap(v, 1.0, 0) == v
  {
    RemapBrightness(v, 0);
  }

  /** With contrast 1 and brightness 0 the returned buffer equals the image's. */
  lemma TransformedIdentity(d: seq<byte>, g: Geometry)
    ensures Transformed(d, g, 1.0, 0) == d
  {
    forall k | 0 <= k < |d|
      ensures Transformed(d, g, 1.0, 0)[k] == d[k]
    {
      RemapIdentity(d[k]);
    }
  }

  /** Results that would exceed 255 saturate: 250 with contrast 2 becomes 255. */
  lemma RemapSaturates()
    ensures Remap(250, 2.0, 0) == 255
  {
  }
}

=== FILE: pnm.dfy ===
/** The binary PGM/PPM (`P5`/`P6`) files of `write_pnm` and `read_pnm`: the bytes
    the writer emits, the header scanner of the reader, what the reader makes of
    a whole file, and the round trip between the two. */
module Pnm {
  import opened Bytes
  import Arith

  const FIVE: byte := 53
  const SIX: byte := 54
  /** What `fgetc` returns at the end of the file. */
  const EOF: int := -1
  /** The maximum value the writer puts in every header, and its text `255`. */
  const MAX_VALUE: nat := 255
  const MAX_TEXT: seq<byte> := [50, 53, 53]

  /** Why `read_pnm` gives up; each is one of its `exit(EXIT_FAILURE)` paths,
      except `NegativeDimension` (see the README). */
  datatype PnmError =
    | NoHeader            // fewer than two bytes for the magic
    | BadMagic            // the first two bytes are not `P5` or `P6`
    | NoImageData         // a `#` comment runs to the end of the file
    | BadAttributes       // `fscanf("%d %d %d")` converted fewer than three integers
    | NegativeDimension   // a negative width or height was read
    | ShortRow(row: nat)  // `fread` came back short on this row

  datatype Result<T> = Ok(value: T) | Fail(error: PnmError)

  /** The outcome of one `%d` conversion: the integer and the index after it. */
  datatype Scan = NoInt | Int(value: int, next: nat)

  /** What the scanner learns from the header: channels from the magic, the three
      integers, and where the pixel rows begin. */
  datatype PnmHeader = PnmHeader(channels: nat, width: int, height: int, maxValue: int, dataStart: nat)

  /** An image as `read_pnm` builds it: rows of `width * channels` bytes, no padding. */
  datatype PnmImage = PnmImage(width: nat, height: nat, channels: nat, pixels: seq<byte>)

  // ---------------------------------------------------------------- writing

  /** The channel count a magic byte announces: `P5` gray, `P6` RGB. */
  function MagicChannels(magic: byte): (n: nat)
    ensures n == 1 || n == 3
    ensures n == 1 <==> magic == FIVE
  {
    if magic == FIVE then 1 else 3
  }

  /** The magic line and the two dimensions: `P5` or `P6`, a newline, then
      `width height` in decimal. */
  function Fields(magic: byte, width: nat, height: nat): seq<byte> {
    [UPPER_P, magic, LF] + Decimal(width) + [SPACE] + Decimal(height)
  }

  /** The ASCII header `write_pnm` streams: the magic line, then
      `width height 255` and a newline. */
  function Header(magic: byte, width: nat, height: nat): seq<byte> {
    Fields(magic, width, height) + [SPACE] + MAX_TEXT + [LF]
  }

  /** The first `n` rows of a buffer of stride `step`, each cut to its first `rowLen` bytes. */
  function Rows(d: seq<byte>, step: int, rowLen: int, n: nat): (r: seq<byte>)
    requires 0 <= rowLen <= step && n * step <= |d|
    ensures |r| == n * rowLen
    decreases n
  {
    if n == 0 then []
    else
      Arith.MulLtStep(n - 1, n, step);
      Arith.MulLtStep(n - 1, n, rowLen);
      Rows(d, step, rowLen, n - 1) + d[(n - 1) * step .. (n - 1) * step + rowLen]
  }

  /** One more row appends row `y`, cut to `rowLen` bytes. */
  lemma RowsNext(d: seq<byte>, step: int, rowLen: int, y: nat)
    requires 0 <= rowLen <= step && y * step + step <= |d|
    ensures 0 <= y * step && (y + 1) * step <= |d|
    ensures Rows(d, step, rowLen, y + 1) == Rows(d, step, rowLen, y) + d[y * step .. y * step + rowLen]
  {
    assert (y + 1) * step == y * step + step;
    Arith.MulLeMono(0, y, step);
  }

  /** Byte `p` of row `y` of the output is byte `p` of row `y` of the buffer. */
  lemma {:induction false} RowsAt(d: seq<byte>, step: int, rowLen: int, n: nat, y: nat, p: nat)
    requires 0 <= rowLen <= step && n * step <= |d|
    requires y < n && p < rowLen
    ensures y * rowLen + p < |Rows(d, step, rowLen, n)| && y * step + p < |d|
    ensures Rows(d, step, rowLen, n)[y * rowLen + p] == d[y * step + p]
    decreases n
  {
    Arith.MulLtStep(n - 1, n, step);
    Arith.MulLtStep(n - 1, n, rowLen);
    Arith.RowMajorBound(y, p, rowLen, n);
    Arith.RowMajorBound(y, p, step, n);
    if y < n - 1 {
      RowsAt(d, step, rowLen, n - 1, y, p);
      Arith.RowMajorBound(y, p, rowLen, n - 1);
    }
  }

  /** Without padding the rows are the buffer itself. */
  lemma RowsUnpadded(d: seq<byte>, step: int, n: nat)
    requires 0 <= step && n * step == |d|
    ensures Rows(d, step, step, n) == d
  {
    forall k | 0 <= k < |d|
      ensures Rows(d, step, step, n)[k] == d[k]
    {
      Arith.Recompose(k, step);
      Arith.RowBelow(k, step, n);
      RowsAt(d, step, step, n, k / step, k % step);
    }
  }

  /** A whole file: the header, then `n` rows of `rowLen` bytes. */
  function PnmFile(magic: byte, width: nat, height: nat, d: seq<byte>, step: int, rowLen: int): seq<byte>
    requires 0 <= rowLen <= step && height * step <= |d|
  {
    Header(magic, width, height) + Rows(d, step, rowLen, height)
  }

  // ---------------------------------------------------------------- reading

  /** The character `fgetc` returns when the file position is `i`. */
  function CharAt(s: seq<byte>, i: nat): int {
    if i < |s| then s[i] else EOF
  }

  /** The bytes the reader skips after the magic: only space, newline and tab. */
  predicate IsBlank(c: int) {
    c == SPACE || c == LF || c == TAB
  }

  /** The first position at or after `i` that is not a blank. */
  function SkipBlanks(s: seq<byte>, i: nat): (j: nat)
    requires i <= |s|
    ensures i <= j <= |s| && !IsBlank(CharAt(s, j))
    decreases |s| - i
  {
    if i < |s| && IsBlank(s[i]) then SkipBlanks(s, i + 1) else i
  }

  /** The first newline at or after `i`, or the end of the file. */
  function FindNewline(s: seq<byte>, i: nat): (j: nat)
    requires i <= |s|
    ensures i <= j <= |s| && (j < |s| ==> s[j] == LF)
    decreases |s| - i
  {
    if i < |s| && s[i] != LF then FindNewline(s, i + 1) else i
  }

  /** Skips consecutive comment lines, each starting with `#` right where the
      previous one ended; a comment without a closing newline is an error. */
  function SkipComments(s: seq<byte>, i: nat): (r: Result<nat>)
    requires i <= |s|
    ensures r.Ok? ==> i <= r.value <= |s| && CharAt(s, r.value) != HASH
    ensures r.Ok? && i < r.value ==> s[i] == HASH && s[r.value - 1] == LF
    ensures r.Fail? ==> r.error == NoImageData
    decreases |s| - i
  {
    if i < |s| && s[i] == HASH then
      var e := FindNewline(s, i + 1);
      if e == |s| then Fail(NoImageData) else SkipComments(s, e + 1)
    else Ok(i)
  }

  /** The first position at or after `i` that C's `isspace` rejects. */
  function SkipSpace(s: seq<byte>, i: nat): (j: nat)
    requires i <= |s|
    ensures i <= j <= |s| && (j == |s| || !IsCSpace(s[j]))
    decreases |s| - i
  {
    if i < |s| && IsCSpace(s[i]) then SkipSpace(s, i + 1) else i
  }

  /** The end of the run of decimal digits starting at `i`. */
  function DigitsEnd(s: seq<byte>, i: nat): (j: nat)
    requires i <= |s|
    ensures i <= j <= |s| && (j == |s| || !IsDigit(s[j]))
    decreases |s| - i
  {
    if i < |s| && IsDigit(s[i]) then DigitsEnd(s, i + 1) else i
  }

  /** One `%d` conversion from position `i`: white space, an optional sign, and
      at least one digit. */
  function ScanInt(s: seq<byte>, i: nat): (r: Scan)
    requires i <= |s|
    ensures r.Int? ==> i < r.next <= |s|
  {
    var j := SkipSpace(s, i);
    var signed := j < |s| && (s[j] == PLUS || s[j] == MINUS);
    var k := if signed then j + 1 else j;
    var e := DigitsEnd(s, k);
    if e == k then NoInt
    else if signed && s[j] == MINUS then Int(-DigitsValue(s, k, e), e)
    else Int(DigitsValue(s, k, e), e)
  }

  // What the scanners skip, and where they stop.

  /** Every byte the blank loop passes over is a blank. */
  lemma {:induction false} SkipBlanksSkipsBlanks(s: seq<byte>, i: nat, k: nat)
    requires i <= |s| && i <= k < SkipBlanks(s, i)
    ensures IsBlank(s[k])
    decreases |s| - i
  {
    if i < k {
      SkipBlanksSkipsBlanks(s, i + 1, k);
    }
  }

  /** No byte before the newline found is a newline. */
  lemma {:induction false} FindNewlineFirst(s: seq<byte>, i: nat, k: nat)
    requires i <= |s| && i <= k < FindNewline(s, i)
    ensures s[k] != LF
    decreases |s| - i
  {
    if i < k {
      FindNewlineFirst(s, i + 1, k);
    }
  }

  /** Without a newline from `i` on, the search runs to the end of the file. */
  lemma {:induction false} FindNewlineNone(s: seq<byte>, i: nat)
    requires i <= |s| && forall k :: i <= k < |s| ==> s[k] != LF
    ensures FindNewline(s, i) == |s|
    decreases |s| - i
  {
    if i < |s| {
      FindNewlineNone(s, i + 1);
    }
  }

  /** A newline preceded only by other bytes is the one found. */
  lemma {:induction false} FindNewlineAt(s: seq<byte>, i: nat, j: nat)
    requires i <= j < |s| && s[j] == LF && forall k :: i <= k < j ==> s[k] != LF
    ensures FindNewline(s, i) == j
    decreases j - i
  {
    if i < j {
      FindNewlineAt(s, i + 1, j);
    }
  }

  /** A `#` with no newline after it ends the header with `NoImageData`. */
  lemma SkipCommentsUnterminated(s: seq<byte>, i: nat)
    requires i < |s| && s[i] == HASH && forall k :: i < k < |s| ==> s[k] != LF
    ensures SkipComments(s, i) == Fail(NoImageData)
  {
    FindNewlineNone(s, i + 1);
  }

  /** A `#` line closed by a newline is skipped, and scanning resumes after
      that newline. */
  lemma SkipCommentsLine(s: seq<byte>, i: nat, j: nat)
    requires i < j < |s| && s[i] == HASH && s[j] == LF && forall k :: i < k < j ==> s[k] != LF
    ensures SkipComments(s, i) == SkipComments(s, j + 1)
  {
    FindNewlineAt(s, i + 1, j);
  }

  /** Every byte `%d` skips before the number is white space. */
  lemma {:induction false} SkipSpaceSkipsSpace(s: seq<byte>, i: nat, k: nat)
    requires i <= |s| && i <= k < SkipSpace(s, i)
    ensures IsCSpace(s[k])
    decreases |s| - i
  {
    if i < k {
      SkipSpaceSkipsSpace(s, i + 1, k);
    }
  }

  /** White space from `i` up to a byte that is not white space is skipped
      exactly up to that byte. */
  lemma {:induction false} SkipSpaceTo(s: seq<byte>, i: nat, j: nat)
    requires i <= j <= |s| && forall k :: i <= k < j ==> IsCSpace(s[k])
    requires j == |s| || !IsCSpace(s[j])
    ensures SkipSpace(s, i) == j
    decreases j - i
  {
    if i < j {
      SkipSpaceTo(s, i + 1, j);
    }
  }

  /** Every byte of the digit run is a digit. */
  lemma {:induction false} DigitsEndSkipsDigits(s: seq<byte>, i: nat, k: nat)
    requires i <= |s| && i <= k < DigitsEnd(s, i)
    ensures IsDigit(s[k])
    decreases |s| - i
  {
    if i < k {
      DigitsEndSkipsDigits(s, i + 1, k);
    }
  }

  /** Digits from `i` up to a non-digit make a run that ends at that non-digit. */
  lemma {:induction false} DigitsEndTo(s: seq<byte>, i: nat, j: nat)
    requires i <= j <= |s| && forall k :: i <= k < j ==> IsDigit(s[k])
    requires j == |s| || !IsDigit(s[j])
    ensures DigitsEnd(s, i) == j
    decreases j - i
  {
    if i < j {
      DigitsEndTo(s, i + 1, j);
    }
  }

  /** The three integers of `fscanf("%d %d %d")` and the index after the third. */
  datatype Attributes = Attributes(width: int, height: int, maxValue: int, next: nat)

  /** The conversion `fscanf("%d %d %d")` from position `p`; it fails unless all
      three integers are converted. */
  function ScanAttributes(s: seq<byte>, p: nat): (r: Result<Attributes>)
    requires p <= |s|
    ensures r.Ok? ==> p < r.value.next <= |s|
    ensures r.Fail? ==> r.error == BadAttributes
  {
    match ScanInt(s, p)
    case NoInt => Fail(BadAttributes)
    case Int(w, p1) =>
      match ScanInt(s, p1)
      case NoInt => Fail(BadAttributes)
      case Int(h, p2) =>
        match ScanInt(s, p2)
        case NoInt => Fail(BadAttributes)
        case Int(levels, p3) => Ok(Attributes(w, h, levels, p3))
  }

  /** The header as `read_pnm` scans it: two magic bytes, blanks, comment lines,
      three `%d` integers, and one byte (if any is left) taken by `fgetc`. */
  function ParseHeader(s: seq<byte>): (r: Result<PnmHeader>)
    ensures r.Ok? ==> r.value.dataStart <= |s| && (r.value.channels == 1 || r.value.channels == 3)
  {
    if |s| < 2 then Fail(NoHeader)
    else if s[0] != UPPER_P || (s[1] != FIVE && s[1] != SIX) then Fail(BadMagic)
    else
      match SkipComments(s, SkipBlanks(s, 2))
      case Fail(e) => Fail(e)
      case Ok(p) =>
        match ScanAttributes(s, p)
        case Fail(e) => Fail(e)
        case Ok(a) =>
          Ok(PnmHeader(MagicChannels(s[1]), a.width, a.height, a.maxValue, if a.next < |s| then a.next + 1 else a.next))
  }

  /** How many whole rows of `rowLen` bytes `avail` bytes hold: the row on
      which `fread` first comes back short. */
  function FullRows(avail: nat, rowLen: nat): (rows: nat)
    ensures 0 < rowLen ==> rows * rowLen <= avail < rows * rowLen + rowLen
  {
    if rowLen == 0 then 0 else avail / rowLen
  }

  /** The rows `read_pnm` reads after header `h`: `height` rows of
      `width * channels` bytes from `dataStart` on, or the first row that the
      rest of the file cannot fill. */
  function ReadRows(s: seq<byte>, h: PnmHeader): (r: Result<PnmImage>)
    requires h.dataStart <= |s| && 0 <= h.width && 0 <= h.height
    ensures r.Ok? ==> r.value.width == h.width && r.value.height == h.height && r.value.channels == h.channels
    ensures r.Ok? ==> |r.value.pixels| == h.height * (h.width * h.channels)
    ensures r.Fail? ==> r.error.ShortRow? && r.error.row < h.height
    ensures r.Ok? <==> h.dataStart + h.height * (h.width * h.channels) <= |s|
  {
    var rowLen := h.width * h.channels;
    var size := h.height * rowLen;
    var avail := |s| - h.dataStart;
    Arith.MulLeMono(0, h.width, h.channels);
    Arith.MulLeMono(0, h.height, rowLen);
    if size <= avail then
      Ok(PnmImage(h.width, h.height, h.channels, s[h.dataStart .. h.dataStart + size]))
    else
      Arith.ProductPositive(h.height, rowLen);
      Arith.RowBelow(avail, rowLen, h.height);
      Fail(ShortRow(FullRows(avail, rowLen)))
  }

  /** Reading stops at row `y` when the bytes left after `y` whole rows are
      fewer than one row. */
  lemma ReadRowsStopsAt(s: seq<byte>, h: PnmHeader, y: nat)
    requires h.dataStart <= |s| && 0 <= h.width && 0 <= h.height && y < h.height
    requires y * (h.width * h.channels) <= |s| - h.dataStart < (y + 1) * (h.width * h.channels)
    ensures ReadRows(s, h) == Fail(ShortRow(y))
  {
    var rowLen, avail := h.width * h.channels, |s| - h.dataStart;
    Arith.MulLeMono(y + 1, h.height, rowLen);
    Arith.DivModUnique(avail, rowLen, y, avail - y * rowLen);
  }

  /** What `read_pnm` makes of a whole file: the header, then `height` rows of
      `width * channels` bytes; bytes after the last row are ignored. */
  function DecodePnm(s: seq<byte>): (r: Result<PnmImage>)
    ensures r.Ok? ==> |r.value.pixels| == r.value.height * (r.value.width * r.value.channels)
    ensures r.Ok? ==> r.value.channels == 1 || r.value.channels == 3
  {
    match ParseHeader(s)
    case Fail(e) => Fail(e)
    case Ok(h) =>
      if h.width < 0 || h.height < 0 then Fail(NegativeDimension) else ReadRows(s, h)
  }

  /** Once the header is parsed, decoding is the header's verdict on the
      dimensions followed by the rows. */
  lemma DecodeParsed(s: seq<byte>, h: PnmHeader)
    requires ParseHeader(s) == Ok(h)
    ensures h.width < 0 || h.height < 0 ==> DecodePnm(s) == Fail(NegativeDimension)
    ensures 0 <= h.width && 0 <= h.height ==> h.dataStart <= |s| && DecodePnm(s) == ReadRows(s, h)
  {
  }

  /** When the file holds all rows, they are the bytes from the data start on. */
  lemma ReadRowsComplete(s: seq<byte>, h: PnmHeader)
    requires h.dataStart <= |s| && 0 <= h.width && 0 <= h.height
    requires h.dataStart + h.height * (h.width * h.channels) <= |s|
    ensures ReadRows(s, h)
      == Ok(PnmImage(h.width, h.height, h.channels, s[h.dataStart .. h.dataStart + h.height * (h.width * h.channels)]))
  {
  }

  /** The header scan of `read_pnm` as the code does it, `fgetc` by `fgetc`. */
  method ScanHeader(s: seq<byte>) returns (r: Result<PnmHeader>)
    ensures r == ParseHeader(s)
  {
    if |s| < 2 {
      return Fail(NoHeader);
    }
    var ch1, ch2 := s[0], s[1];
    if ch1 != UPPER_P || (ch2 != FIVE && ch2 != SIX) {
      return Fail(BadMagic);
    }
    var nCh := -1;
    if ch2 == FIVE {
      nCh := 1;
    } else if ch2 == SIX {
      nCh := 3;
    }
    var after := SkipBlankBytes(s);
    var comments := SkipCommentLines(s, after);
    if comments.Fail? {
      return Fail(comments.error);
    }
    // `ungetc(c)` puts the file position back where `c` was read
    var attributes := ReadAttributes(s, comments.value);
    if attributes.Fail? {
      return Fail(attributes.error);
    }
    // the one `fgetc` after the third integer
    var a := attributes.value;
    var start := a.next;
    if start < |s| {
      start := start + 1;
    }
    return Ok(PnmHeader(nCh, a.width, a.height, a.maxValue, start));
  }

  /** `fscanf("%d %d %d")`: three conversions in a row. */
  method ReadAttributes(s: seq<byte>, at: nat) returns (r: Result<Attributes>)
    requires at <= |s|
    ensures r == ScanAttributes(s, at)
  {
    var width := ReadInt(s, at);
    if width.NoInt? {
      return Fail(BadAttributes);
    }
    var height := ReadInt(s, width.next);
    if height.NoInt? {
      return Fail(BadAttributes);
    }
    var levels := ReadInt(s, height.next);
    if levels.NoInt? {
      return Fail(BadAttributes);
    }
    return Ok(Attributes(width.value, height.value, levels.value, levels.next));
  }

  /** The blank-skipping loop after the magic; returns the position of the
      first character it does not skip. */
  method SkipBlankBytes(s: seq<byte>) returns (at: nat)
    requires 2 <= |s|
    ensures at == SkipBlanks(s, 2)
  {
    // `at` is the position of the character `c` last returned by `fgetc`
    at := 2;
    var c := CharAt(s, at);
    while c == SPACE || c == LF || c == TAB
      invariant 2 <= at <= |s| && c == CharAt(s, at)
      invariant SkipBlanks(s, at) == SkipBlanks(s, 2)
      decreases |s| - at
    {
      at := at + 1;
      c := CharAt(s, at);
    }
  }

  /** The comment-skipping loops; `first` is the position of the character the
      blank loop stopped at. */
  method SkipCommentLines(s: seq<byte>, first: nat) returns (r: Result<nat>)
    requires first <= |s|
    ensures r == SkipComments(s, first)
  {
    var at := first;
    var c := CharAt(s, at);
    while c == HASH
      invariant first <= at <= |s| && c == CharAt(s, at)
      invariant SkipComments(s, at) == SkipComments(s, first)
      decreases |s| - at
    {
      ghost var hash := at;
      while c != LF
        invariant hash <= at < |s| && c == CharAt(s, at)
        invariant c != LF ==> FindNewline(s, at + 1) == FindNewline(s, hash + 1)
        invariant c == LF ==> at == FindNewline(s, hash + 1)
        decreases |s| - at
      {
        at := at + 1;
        c := CharAt(s, at);
        if c == EOF {
          return Fail(NoImageData);
        }
      }
      at := at + 1;
      c := CharAt(s, at);
    }
    return Ok(at);
  }

  /** A run of decimal digits from `k` and the number it denotes, read the way
      `%d` accumulates it. */
  method ReadDigits(s: seq<byte>, k: nat) returns (e: nat, m: int)
    requires k <= |s|
    ensures e == DigitsEnd(s, k) && m == DigitsValue(s, k, e)
  {
    e, m := k, 0;
    while e < |s| && IsDigit(s[e])
      invariant k <= e <= |s|
      invariant DigitsEnd(s, e) == DigitsEnd(s, k)
      invariant m == DigitsValue(s, k, e)
    {
      m := m * 10 + (s[e] - ZERO);
      e := e + 1;
    }
  }

  /** One `%d` conversion as `fscanf` does it. */
  method ReadInt(s: seq<byte>, i: nat) returns (r: Scan)
    requires i <= |s|
    ensures r == ScanInt(s, i)
  {
    var j := i;
    while j < |s| && IsCSpace(s[j])
      invariant i <= j <= |s| && SkipSpace(s, j) == SkipSpace(s, i)
    {
      j := j + 1;
    }
    var negative := false;
    if j < |s| && (s[j] == PLUS || s[j] == MINUS) {
      negative := s[j] == MINUS;
      j := j + 1;
    }
    var e, m := ReadDigits(s, j);
    if e == j {
      return NoInt;
    }
    var value: int := m;
    if negative {
      value := -value;
    }
    return Int(value, e);
  }

  // ---------------------------------------------------------------- round trip

  /** A `%d` conversion at `i` over white space and then the digits of `n`,
      followed by a non-digit or the end, reads `n`. */
  lemma ScanDecimal(s: seq<byte>, i: nat, j: nat, n: nat)
    requires i <= j && j + |Decimal(n)| <= |s|
    requires forall t :: i <= t < j ==> IsCSpace(s[t])
    requires forall t :: 0 <= t < |Decimal(n)| ==> s[j + t] == Decimal(n)[t]
    requires j + |Decimal(n)| == |s| || !IsDigit(s[j + |Decimal(n)|])
    ensures ScanInt(s, i) == Int(n, j + |Decimal(n)|)
  {
    var ds := Decimal(n);
    assert IsDigit(s[j]) by { assert s[j + 0] == ds[0]; }
    SkipSpaceTo(s, i, j);
    forall t | j <= t < j + |ds|
      ensures IsDigit(s[t])
    {
      assert s[j + (t - j)] == ds[t - j];
    }
    DigitsEndTo(s, j, j + |ds|);
    DecimalRoundTrip(s, j, n);
  }

  /** The `%d` conversion of ` 255` followed by a newline reads 255. */
  lemma ScanMaxValue(s: seq<byte>, i: nat)
    requires i + 4 < |s| && s[i] == SPACE && s[i + 4] == LF
    requires s[i + 1] == MAX_TEXT[0] && s[i + 2] == MAX_TEXT[1] && s[i + 3] == MAX_TEXT[2]
    ensures ScanInt(s, i) == Int(MAX_VALUE, i + 4)
  {
    SkipSpaceTo(s, i, i + 1);
    DigitsEndTo(s, i + 1, i + 4);
    assert DigitsValue(s, i + 1, i + 2) == 2;
    assert DigitsValue(s, i + 1, i + 3) == 25;
    assert DigitsValue(s, i + 1, i + 4) == MAX_VALUE;
  }

  /** `s` begins with the bytes `prefix`. */
  predicate StartsWith(s: seq<byte>, prefix: seq<byte>) {
    |prefix| <= |s| && s[..|prefix|] == prefix
  }

  /** After the magic line of a file that starts with the magic and the two
      dimensions, the scanner finds neither blanks nor comments. */
  lemma FieldsStart(s: seq<byte>, magic: byte, width: nat, height: nat)
    requires StartsWith(s, Fields(magic, width, height))
    ensures 2 < |s| && s[0] == UPPER_P && s[1] == magic && SkipComments(s, SkipBlanks(s, 2)) == Ok(3)
  {
    var f := Fields(magic, width, height);
    assert s[0] == f[0] && s[1] == f[1] && s[2] == f[2] && s[3] == f[3];
    assert IsDigit(f[3]) by { assert f[3] == Decimal(width)[0]; }
    assert SkipBlanks(s, 2) == 3;
  }

  /** The first `%d` reads the width. */
  lemma ScanWidth(s: seq<byte>, magic: byte, width: nat, height: nat)
    requires StartsWith(s, Fields(magic, width, height))
    ensures ScanInt(s, 3) == Int(width, 3 + |Decimal(width)|)
  {
    var f, dw := Fields(magic, width, height), Decimal(width);
    forall t | 0 <= t < |dw|
      ensures s[3 + t] == dw[t]
    {
      assert s[3 + t] == f[3 + t];
    }
    assert s[3 + |dw|] == f[3 + |dw|] == SPACE;
    ScanDecimal(s, 3, 3, width);
  }

  /** The second `%d` reads the height, when no digit follows it. */
  lemma ScanHeight(s: seq<byte>, magic: byte, width: nat, height: nat)
    requires StartsWith(s, Fields(magic, width, height))
    requires var e := |Fields(magic, width, height)|; e == |s| || !IsDigit(s[e])
    ensures ScanInt(s, 3 + |Decimal(width)|) == Int(height, |Fields(magic, width, height)|)
  {
    var f := Fields(magic, width, height);
    var front := [UPPER_P, magic, LF] + Decimal(width) + [SPACE];
    var p1 := 3 + |Decimal(width)|;
    assert s[p1] == SPACE && s[p1 + 1 .. |f|] == Decimal(height) by {
      assert f == front + Decimal(height);
      assert s[p1] == f[p1];
      assert s[p1 + 1 .. |f|] == f[p1 + 1 ..];
    }
    ScanAfterSpace(s, p1, height);
  }

  /** A `%d` conversion at a space followed by the digits of `n` and then no
      further digit reads `n`. */
  lemma ScanAfterSpace(s: seq<byte>, p: nat, n: nat)
    requires p + 1 + |Decimal(n)| <= |s| && s[p] == SPACE
    requires s[p + 1 .. p + 1 + |Decimal(n)|] == Decimal(n)
    requires p + 1 + |Decimal(n)| == |s| || !IsDigit(s[p + 1 + |Decimal(n)|])
    ensures ScanInt(s, p) == Int(n, p + 1 + |Decimal(n)|)
  {
    var ds := Decimal(n);
    forall t | 0 <= t < |ds|
      ensures s[p + 1 + t] == ds[t]
    {
      assert s[p + 1 .. p + 1 + |ds|][t] == ds[t];
    }
    ScanDecimal(s, p, p + 1, n);
  }

  /** The third `%d` of a written header reads 255. */
  lemma ScanLevels(s: seq<byte>, magic: byte, width: nat, height: nat)
    requires StartsWith(s, Header(magic, width, height))
    ensures var p2 := |Fields(magic, width, height)|;
      p2 + 4 < |s| && ScanInt(s, p2) == Int(MAX_VALUE, p2 + 4)
  {
    var h := Header(magic, width, height);
    var p2 := |Fields(magic, width, height)|;
    assert h[p2..] == [SPACE] + MAX_TEXT + [LF];
    assert s[p2] == h[p2] && s[p2 + 1] == h[p2 + 1] && s[p2 + 2] == h[p2 + 2];
    assert s[p2 + 3] == h[p2 + 3] && s[p2 + 4] == h[p2 + 4];
    ScanMaxValue(s, p2);
  }

  /** What the scanner meets in a file that starts with a written header:
      nothing to skip before the width, then the three integers, each ending
      where the next begins. */
  lemma HeaderFields(s: seq<byte>, magic: byte, width: nat, height: nat)
    requires StartsWith(s, Header(magic, width, height))
    ensures var last := |Header(magic, width, height)| - 1;
      && 3 <= last < |s| && s[0] == UPPER_P && s[1] == magic
      && SkipComments(s, SkipBlanks(s, 2)) == Ok(3)
      && ScanAttributes(s, 3) == Ok(Attributes(width, height, MAX_VALUE, last))
  {
    var f := Fields(magic, width, height);
    HeaderScans(s, magic, width, height);
    FieldsStart(s, magic, width, height);
    ScanAttributesOf(s, 3, width, height, MAX_VALUE, 3 + |Decimal(width)|, |f|, |f| + 4);
  }

  /** The three `%d` conversions over a written header, one after the other. */
  lemma HeaderScans(s: seq<byte>, magic: byte, width: nat, height: nat)
    requires StartsWith(s, Header(magic, width, height))
    ensures var f := Fields(magic, width, height);
      && |Header(magic, width, height)| == |f| + 5 && StartsWith(s, f)
      && ScanInt(s, 3) == Int(width, 3 + |Decimal(width)|)
      && ScanInt(s, 3 + |Decimal(width)|) == Int(height, |f|)
      && ScanInt(s, |f|) == Int(MAX_VALUE, |f| + 4)
  {
    HeaderExtendsFields(s, magic, width, height);
    ScanWidth(s, magic, width, height);
    ScanHeight(s, magic, width, height);
    ScanLevels(s, magic, width, height);
  }

  /** A file that starts with a written header starts with its magic line and
      dimensions, followed by a space. */
  lemma HeaderExtendsFields(s: seq<byte>, magic: byte, width: nat, height: nat)
    requires StartsWith(s, Header(magic, width, height))
    ensures var f := Fields(magic, width, height);
      |Header(magic, width, height)| == |f| + 5 && StartsWith(s, f) && s[|f|] == SPACE
  {
    var f, h := Fields(magic, width, height), Header(magic, width, height);
    assert h == f + ([SPACE] + MAX_TEXT + [LF]);
    assert s[..|f|] == h[..|f|];
    assert s[|f|] == h[|f|];
  }

  /** Dropping bytes from the front of a concatenation drops them from its first part. */
  lemma DropFromConcat(a: seq<byte>, b: seq<byte>, n: nat)
    requires n <= |a|
    ensures (a + b)[n..] == a[n..] + b
  {
  }

  /** Past a prefix `c`, a file `c + hs[3..] + px` continues as `hs + px` does
      past its first three bytes. */
  lemma DropAfterPrefix(c: seq<byte>, hs: seq<byte>, px: seq<byte>, m: nat)
    requires 3 <= m <= |hs|
    ensures (c + hs[3..] + px)[|c| + m - 3..] == (hs + px)[m..]
  {
  }

  /** A concatenation starts with its first part. */
  lemma ConcatStartsWith(a: seq<byte>, b: seq<byte>)
    ensures StartsWith(a + b, a)
  {
    assert (a + b)[..|a|] == a;
  }

  /** The header the scanner builds from a magic, the blanks and comments up
      to `p`, and three attributes followed by at least one byte. */
  lemma ParseHeaderOf(s: seq<byte>, magic: byte, p: nat, a: Attributes, h: PnmHeader)
    requires magic == FIVE || magic == SIX
    requires 2 <= p <= |s| && s[0] == UPPER_P && s[1] == magic
    requires SkipComments(s, SkipBlanks(s, 2)) == Ok(p)
    requires ScanAttributes(s, p) == Ok(a) && a.next < |s|
    requires h.channels == MagicChannels(magic) && h.width == a.width && h.height == a.height
    requires h.maxValue == a.maxValue && h.dataStart == a.next + 1
    ensures ParseHeader(s) == Ok(h)
  {
  }

  /** Three integers in a row make the attributes. */
  lemma ScanAttributesOf(s: seq<byte>, p: nat, width: int, height: int, levels: int, p1: nat, p2: nat, p3: nat)
    requires p <= |s| && ScanInt(s, p) == Int(width, p1)
    requires p1 <= |s| && ScanInt(s, p1) == Int(height, p2)
    requires p2 <= |s| && ScanInt(s, p2) == Int(levels, p3)
    ensures ScanAttributes(s, p) == Ok(Attributes(width, height, levels, p3))
  {
  }

  /** The scanner reads back every header the writer emits, and the pixel rows
      begin right after its final newline. */
  lemma HeaderRoundTrip(magic: byte, width: nat, height: nat, rest: seq<byte>)
    requires magic == FIVE || magic == SIX
    ensures ParseHeader(Header(magic, width, height) + rest)
         == Ok(PnmHeader(MagicChannels(magic), width, height, MAX_VALUE, |Header(magic, width, height)|))
  {
    var hs := Header(magic, width, height);
    var s := hs + rest;
    ConcatStartsWith(hs, rest);
    HeaderFields(s, magic, width, height);
    ParseHeaderOf(s, magic, 3, Attributes(width, height, MAX_VALUE, |hs| - 1),
                  PnmHeader(MagicChannels(magic), width, height, MAX_VALUE, |hs|));
  }

  /** Decoding a header the writer emits followed by `px`: the image holds the
      first `height * width * channels` bytes of `px`, or the reader reports the
      first row that `px` cannot fill. */
  lemma DecodeAfterHeader(magic: byte, width: nat, height: nat, px: seq<byte>)
    requires magic == FIVE || magic == SIX
    ensures var n := MagicChannels(magic);
      var size := height * (width * n);
      DecodePnm(Header(magic, width, height) + px)
        == if size <= |px| then Ok(PnmImage(width, height, n, px[..size]))
           else Fail(ShortRow(FullRows(|px|, width * n)))
  {
    var hs := Header(magic, width, height);
    var h := PnmHeader(MagicChannels(magic), width, height, MAX_VALUE, |hs|);
    HeaderRoundTrip(magic, width, height, px);
    assert DecodePnm(hs + px) == ReadRows(hs + px, h);
    ReadRowsAfter(hs, px, h);
  }

  /** The rows read after a header of `|hs|` bytes are the first bytes of what
      follows it, or the first row those bytes cannot fill. */
  lemma ReadRowsAfter(hs: seq<byte>, px: seq<byte>, h: PnmHeader)
    requires h.dataStart == |hs| && 0 <= h.width && 0 <= h.height
    ensures var size := h.height * (h.width * h.channels);
      ReadRows(hs + px, h)
        == if size <= |px| then Ok(PnmImage(h.width, h.height, h.channels, px[..size]))
           else Fail(ShortRow(FullRows(|px|, h.width * h.channels)))
  {
    var size := h.height * (h.width * h.channels);
    if size <= |px| {
      assert (hs + px)[|hs| .. |hs| + size] == px[..size];
    }
  }

  /** Reading back a file written with rows of `width * channels` bytes yields
      the image's width, height and pixels with the row padding dropped. */
  lemma {:induction false} PnmRoundTrip(magic: byte, width: nat, height: nat, d: seq<byte>, step: int)
    requires magic == FIVE || magic == SIX
    requires var n := MagicChannels(magic); width * n <= step && height * step <= |d|
    ensures var n := MagicChannels(magic);
      DecodePnm(PnmFile(magic, width, height, d, step, width * n))
        == Ok(PnmImage(width, height, n, Rows(d, step, width * n, height)))
  {
    var n := MagicChannels(magic);
    var rows := Rows(d, step, width * n, height);
    DecodeAfterHeader(magic, width, height, rows);
    assert rows[..height * (width * n)] == rows;
  }

  /** A gray image without row padding survives a write and a read unchanged. */
  lemma GrayRoundTrip(width: nat, height: nat, d: seq<byte>)
    requires |d| == height * width
    ensures DecodePnm(PnmFile(FIVE, width, height, d, width, width)) == Ok(PnmImage(width, height, 1, d))
  {
    assert MagicChannels(FIVE) == 1 && width * 1 == width;
    PnmRoundTrip(FIVE, width, height, d, width);
    RowsUnpadded(d, width, height);
  }

  /** The `P6` branch of the 02T writer streams whole rows of `m_step` bytes.
      For an RGB image one pixel wide and two high with a stride of 4, the
      padding byte of the first row is read back as the first byte of the
      second pixel, which then differs from the image whenever that padding
      byte differs from the pixel's first byte. */
  lemma PaddedRgbMisread(d: seq<byte>)
    requires |d| == 8
    ensures DecodePnm(PnmFile(SIX, 1, 2, d, 4, 4)) == Ok(PnmImage(1, 2, 3, d[..6]))
    ensures d[3] != d[4] ==> DecodePnm(PnmFile(SIX, 1, 2, d, 4, 4)) != Ok(PnmImage(1, 2, 3, Rows(d, 4, 3, 2)))
  {
    RowsUnpadded(d, 4, 2);
    DecodeAfterHeader(SIX, 1, 2, d);
    RowsAt(d, 4, 3, 2, 1, 0);
    assert d[..6][3] == d[3];
  }

  /** A magic other than `P5` or `P6` is rejected, whatever follows. */
  lemma DecodeBadMagic(s: seq<byte>)
    requires 2 <= |s| && (s[0] != UPPER_P || (s[1] != FIVE && s[1] != SIX))
    ensures DecodePnm(s) == Fail(BadMagic)
  {
  }

  /** A comment right after the magic that never reaches a newline is rejected. */
  lemma DecodeUnterminatedComment(magic: byte, t: seq<byte>)
    requires magic == FIVE || magic == SIX
    requires LF !in t
    ensures DecodePnm([UPPER_P, magic, LF, HASH] + t) == Fail(NoImageData)
  {
    var s := [UPPER_P, magic, LF, HASH] + t;
    assert SkipBlanks(s, 2) == 3;
    forall k | 4 <= k < |s|
      ensures s[k] != LF
    {
      assert s[k] == t[k - 4];
    }
    FindNewlineNone(s, 4);
  }

  /** A header that stops after the two dimensions is rejected. */
  lemma DecodeTwoAttributes(magic: byte, width: nat, height: nat)
    requires magic == FIVE || magic == SIX
    ensures DecodePnm(Fields(magic, width, height) + [LF]) == Fail(BadAttributes)
  {
    var f := Fields(magic, width, height);
    var s := f + [LF];
    assert StartsWith(s, f) && s[|f|] == LF;
    FieldsStart(s, magic, width, height);
    ScanWidth(s, magic, width, height);
    ScanHeight(s, magic, width, height);
    assert SkipSpace(s, |f|) == |s|;
    assert ScanInt(s, |f|) == NoInt;
  }
  // ---------------------------------------------------------------- comment lines

  /** Two files agree from `i` and `q` on: what follows those positions is the
      same bytes. */
  predicate Agree(s: seq<byte>, i: nat, u: seq<byte>, q: nat) {
    i <= |s| && q <= |u| && |s| - i == |u| - q && forall k :: i <= k < |s| ==> s[k] == u[k - i + q]
  }

  /** Files whose tails from `i` and `q` are equal agree from there on. */
  lemma AgreeFromTails(s: seq<byte>, i: nat, u: seq<byte>, q: nat)
    requires i <= |s| && q <= |u| && s[i..] == u[q..]
    ensures Agree(s, i, u, q)
  {
    forall k | i <= k < |s|
      ensures s[k] == u[k - i + q]
    {
      assert s[k] == s[i..][k - i];
    }
  }

  /** White space is skipped alike in two files that agree from `i` and `q` on. */
  lemma {:induction false} SkipSpaceSuffix(s: seq<byte>, i: nat, u: seq<byte>, q: nat)
    requires Agree(s, i, u, q)
    ensures SkipSpace(s, i) - i == SkipSpace(u, q) - q
    decreases |s| - i
  {
    if i < |s| {
      assert s[i] == u[q];
      SkipSpaceSuffix(s, i + 1, u, q + 1);
    }
  }

  /** Digit runs end alike in two files that agree from `i` and `q` on. */
  lemma {:induction false} DigitsEndSuffix(s: seq<byte>, i: nat, u: seq<byte>, q: nat)
    requires Agree(s, i, u, q)
    ensures DigitsEnd(s, i) - i == DigitsEnd(u, q) - q
    decreases |s| - i
  {
    if i < |s| {
      assert s[i] == u[q];
      DigitsEndSuffix(s, i + 1, u, q + 1);
    }
  }

  /** Digits that agree have the same value. */
  lemma {:induction false} DigitsValueSuffix(s: seq<byte>, k: nat, e: nat, u: seq<byte>, q: nat)
    requires k <= e <= |s| && Agree(s, k, u, q)
    ensures q + (e - k) <= |u| && DigitsValue(s, k, e) == DigitsValue(u, q, q + (e - k))
    decreases e
  {
    if e > k {
      DigitsValueSuffix(s, k, e - 1, u, q);
      assert s[e - 1] == u[q + (e - 1 - k)];
    }
  }

  /** The result of a `%d` conversion from the positions it passes through. */
  lemma ScanIntIs(s: seq<byte>, i: nat, j: nat, signed: bool, minus: bool, k: nat, e: nat, v: int)
    requires i <= |s| && j == SkipSpace(s, i)
    requires signed == (j < |s| && (s[j] == PLUS || s[j] == MINUS))
    requires minus == (signed && s[j] == MINUS)
    requires k == (if signed then j + 1 else j) && k <= |s|
    requires e == DigitsEnd(s, k) && v == DigitsValue(s, k, e)
    ensures ScanInt(s, i) == if e == k then NoInt else if minus then Int(-v, e) else Int(v, e)
  {
  }

  /** A `%d` conversion reads the same integer in two files that agree from
      `i` and `q` on, and stops at the same distance. */
  lemma ScanIntSuffix(s: seq<byte>, i: nat, u: seq<byte>, q: nat)
    requires Agree(s, i, u, q)
    ensures ScanInt(s, i).NoInt? <==> ScanInt(u, q).NoInt?
    ensures ScanInt(s, i).Int? ==>
      ScanInt(s, i).value == ScanInt(u, q).value && ScanInt(s, i).next - i == ScanInt(u, q).next - q
  {
    var j, j' := SkipSpace(s, i), SkipSpace(u, q);
    SkipSpaceSuffix(s, i, u, q);
    var signed := j < |s| && (s[j] == PLUS || s[j] == MINUS);
    var signed' := j' < |u| && (u[j'] == PLUS || u[j'] == MINUS);
    var minus := signed && s[j] == MINUS;
    var minus' := signed' && u[j'] == MINUS;
    if j < |s| {
      assert s[j] == u[j'];
    }
    var k, k' := if signed then j + 1 else j, if signed' then j' + 1 else j';
    var e, e' := DigitsEnd(s, k), DigitsEnd(u, k');
    DigitsEndSuffix(s, k, u, k');
    DigitsValueSuffix(s, k, e, u, k');
    var v, v' := DigitsValue(s, k, e), DigitsValue(u, k', e');
    ScanIntIs(s, i, j, signed, minus, k, e, v);
    ScanIntIs(u, q, j', signed', minus', k', e', v');
  }

  /** `fscanf("%d %d %d")` reads the same three integers in two files that
      agree from `i` and `q` on. */
  lemma ScanAttributesSuffix(s: seq<byte>, i: nat, u: seq<byte>, q: nat, a: Attributes, b: Attributes)
    requires Agree(s, i, u, q)
    requires ScanAttributes(u, q) == Ok(a)
    requires b.width == a.width && b.height == a.height && b.maxValue == a.maxValue && b.next == a.next - q + i
    ensures b.next <= |s| && ScanAttributes(s, i) == Ok(b)
  {
    var p1', p2' := ScanInt(u, q).next, ScanInt(u, ScanInt(u, q).next).next;
    assert ScanInt(u, q) == Int(a.width, p1');
    assert ScanInt(u, p1') == Int(a.height, p2');
    assert ScanInt(u, p2') == Int(a.maxValue, a.next);
    ScanIntSuffix(s, i, u, q);
    var p1 := p1' - q + i;
    ScanIntSuffix(s, p1, u, p1');
    var p2 := p2' - p1' + p1;
    ScanIntSuffix(s, p2, u, p2');
    ScanAttributesOf(s, i, b.width, b.height, b.maxValue, p1, p2, b.next);
  }

  /** After the magic line, a comment line from 3 to the newline at `n - 1` is
      skipped when the byte at `n` does not start another comment. */
  lemma CommentLineSkipped(s: seq<byte>, n: nat)
    requires 4 < n < |s| && s[2] == LF && s[3] == HASH && s[n - 1] == LF && s[n] != HASH
    requires forall k :: 3 < k < n - 1 ==> s[k] != LF
    ensures SkipComments(s, SkipBlanks(s, 2)) == Ok(n)
  {
    assert SkipBlanks(s, 2) == 3;
    SkipCommentsLine(s, 3, n - 1);
  }

  /** What the scanner finds from the dimensions of a written header on: the
      three attributes, starting with a digit. */
  lemma HeaderAttributes(magic: byte, width: nat, height: nat, px: seq<byte>)
    ensures var hs := Header(magic, width, height);
      && 3 < |hs| && hs[3] != HASH && |hs| - 1 < |hs + px|
      && ScanAttributes(hs + px, 3) == Ok(Attributes(width, height, MAX_VALUE, |hs| - 1))
  {
    var hs := Header(magic, width, height);
    ConcatStartsWith(hs, px);
    HeaderFields(hs + px, magic, width, height);
    assert hs[3] == Fields(magic, width, height)[3] == Decimal(width)[0];
  }

  /** The layout of a file whose magic line is followed by a comment line `#t`
      and then by `d` and `px`: the comment line ends at `|t| + 4`. */
  lemma CommentLayout(s: seq<byte>, magic: byte, t: seq<byte>, d: seq<byte>, px: seq<byte>)
    requires LF !in t && s == [UPPER_P, magic, LF, HASH] + t + [LF] + d + px
    requires 0 < |d| && d[0] != HASH
    ensures var n := |t| + 5;
      && n < |s| && s[0] == UPPER_P && s[1] == magic && s[2] == LF && s[3] == HASH
      && s[n - 1] == LF && s[n] != HASH && s[n..] == d + px
      && forall k :: 3 < k < n - 1 ==> s[k] != LF
  {
    var n := |t| + 5;
    assert s[n] == d[0];
    forall k | 3 < k < n - 1
      ensures s[k] != LF
    {
      assert s[k] == t[k - 4];
    }
    assert s == [UPPER_P, magic, LF, HASH] + t + [LF] + (d + px);
  }

  /** Past a comment line that ends at `n - 1`, the scanner finds the
      attributes `u` holds from 3 on when the file continues as `u` does. */
  lemma ParseAfterComment(s: seq<byte>, magic: byte, n: nat, u: seq<byte>, a: Attributes, h: PnmHeader)
    requires magic == FIVE || magic == SIX
    requires 4 < n < |s| && s[0] == UPPER_P && s[1] == magic && s[2] == LF && s[3] == HASH
    requires s[n - 1] == LF && s[n] != HASH && forall k :: 3 < k < n - 1 ==> s[k] != LF
    requires 3 <= |u| && s[n..] == u[3..] && ScanAttributes(u, 3) == Ok(a) && a.next < |u|
    requires h.channels == MagicChannels(magic) && h.width == a.width && h.height == a.height
    requires h.maxValue == a.maxValue && h.dataStart == a.next - 3 + n + 1
    ensures ParseHeader(s) == Ok(h)
  {
    CommentLineSkipped(s, n);
    AgreeFromTails(s, n, u, 3);
    var b := Attributes(a.width, a.height, a.maxValue, a.next - 3 + n);
    ScanAttributesSuffix(s, n, u, 3, a, b);
    ParseHeaderOf(s, magic, n, b, h);
  }

  /** A header `hs` whose attributes start at 3 with a non-`#` byte, with a
      comment line `#t` put after its magic line: the scanner reads the
      attributes `|t| + 2` bytes further on. */
  lemma ParseCommentedHeader(s: seq<byte>, magic: byte, t: seq<byte>, hs: seq<byte>, px: seq<byte>, a: Attributes, h: PnmHeader)
    requires magic == FIVE || magic == SIX
    requires 3 < |hs| && LF !in t && s == [UPPER_P, magic, LF, HASH] + t + [LF] + hs[3..] + px
    requires hs[3] != HASH && ScanAttributes(hs + px, 3) == Ok(a) && a.next < |hs + px|
    requires h.channels == MagicChannels(magic) && h.width == a.width && h.height == a.height
    requires h.maxValue == a.maxValue && h.dataStart == |t| + 5 + a.next - 3 + 1
    ensures ParseHeader(s) == Ok(h)
  {
    DropFromConcat(hs, px, 3);
    CommentLayout(s, magic, t, hs[3..], px);
    ParseAfterComment(s, magic, |t| + 5, hs + px, a, h);
  }

  /** The scanner reads the header of a written file with a comment line after
      its magic line, and the pixel rows begin after the header's final newline. */
  lemma ParseCommentLine(s: seq<byte>, magic: byte, t: seq<byte>, width: nat, height: nat, px: seq<byte>)
    requires magic == FIVE || magic == SIX
    requires LF !in t && s == [UPPER_P, magic, LF, HASH] + t + [LF] + Header(magic, width, height)[3..] + px
    ensures ParseHeader(s)
         == Ok(PnmHeader(MagicChannels(magic), width, height, MAX_VALUE, |t| + 5 + |Header(magic, width, height)| - 3))
  {
    HeaderAttributes(magic, width, height, px);
    ParseCommentedHeader(s, magic, t, Header(magic, width, height), px,
                         Attributes(width, height, MAX_VALUE, |Header(magic, width, height)| - 1),
                         PnmHeader(MagicChannels(magic), width, height, MAX_VALUE, |t| + 5 + |Header(magic, width, height)| - 3));
  }

  /** Two files whose headers differ only in where the pixels start read the same rows when their tails agree. */
  lemma ReadRowsSameTail(s: seq<byte>, hs: PnmHeader, u: seq<byte>, hu: PnmHeader)
    requires hs.dataStart <= |s| && hu.dataStart <= |u| && 0 <= hu.width && 0 <= hu.height
    requires hs.(dataStart := hu.dataStart) == hu
    requires s[hs.dataStart..] == u[hu.dataStart..]
    ensures ReadRows(s, hs) == ReadRows(u, hu)
  {
    var size := hu.height * (hu.width * hu.channels);
    assert |s| - hs.dataStart == |u| - hu.dataStart by {
      assert |s[hs.dataStart..]| == |u[hu.dataStart..]|;
    }
    if hs.dataStart + size <= |s| {
      assert s[hs.dataStart .. hs.dataStart + size] == s[hs.dataStart..][..size];
      assert u[hu.dataStart .. hu.dataStart + size] == u[hu.dataStart..][..size];
    }
  }

  /** Two files whose headers differ only in where the rows start, and whose
      bytes from there on are the same, decode to the same image or error. */
  lemma DecodeSameRows(s: seq<byte>, hs: PnmHeader, u: seq<byte>, hu: PnmHeader)
    requires ParseHeader(s) == Ok(hs) && ParseHeader(u) == Ok(hu)
    requires hs.(dataStart := hu.dataStart) == hu
    requires s[hs.dataStart..] == u[hu.dataStart..]
    ensures DecodePnm(s) == DecodePnm(u)
  {
    DecodeParsed(s, hs);
    DecodeParsed(u, hu);
    if 0 <= hu.width && 0 <= hu.height {
      ReadRowsSameTail(s, hs, u, hu);
    }
  }

  /** A comment line `#...` between the magic line and the dimensions of a
      written file changes nothing the reader returns. */
  lemma DecodeCommentLine(s: seq<byte>, magic: byte, t: seq<byte>, width: nat, height: nat, px: seq<byte>)
    requires magic == FIVE || magic == SIX
    requires LF !in t && s == [UPPER_P, magic, LF, HASH] + t + [LF] + Header(magic, width, height)[3..] + px
    ensures DecodePnm(s) == DecodePnm(Header(magic, width, height) + px)
  {
    var c := [UPPER_P, magic, LF, HASH] + t + [LF];
    ParseCommentLine(s, magic, t, width, height, px);
    HeaderRoundTrip(magic, width, height, px);
    DropAfterPrefix(c, Header(magic, width, height), px, |Header(magic, width, height)|);
    DropFromConcat(Header(magic, width, height), px, |Header(magic, width, height)|);
    DecodeSameRows(s, PnmHeader(MagicChannels(magic), width, height, MAX_VALUE, |t| + 5 + |Header(magic, width, height)| - 3),
                   Header(magic, width, height) + px,
                   PnmHeader(MagicChannels(magic), width, height, MAX_VALUE, |Header(magic, width, height)|));
  }
}

=== FILE: raster.dfy ===
/** The strided raster layout of `ceng391::Image` and the rectangle fills done in
    place on it: the geometry and stride rule, the two clipping orders of
    `set_rect`, and the per-channel fill that `set_rect` and `set_rect_rgb` share. */
module Raster {
  import opened Bytes
  import Arith

  /** Width and height in pixels, channels per pixel, and bytes per row (`m_step`). */
  datatype Geometry = Geometry(width: int, height: int, channels: int, step: int)

  /** A row holds all channels of its pixels, possibly followed by padding. */
  predicate GeometryOk(g: Geometry) {
    0 <= g.width && 0 <= g.height && 0 <= g.channels && g.width * g.channels <= g.step
  }

  /** A buffer of `m_step * m_height` bytes laid out by `g`. */
  predicate Fits(g: Geometry, d: seq<byte>) {
    GeometryOk(g) && |d| == g.step * g.height
  }

  /** The row stride the constructor picks: `width * n_channels`, raised to the
      requested `step` when that is larger. */
  function Stride(width: int, channels: int, step: int): (s: int)
    ensures s >= width * channels && s >= step
    ensures s == width * channels || s == step
  {
    var s := width * channels;
    if s < step then step else s
  }

  /** Where channel `c` of pixel `(i, j)` (column `i`, row `j`) is stored: row `j`
      starts at `j * m_step`, and pixel `i` at `i * m_n_channels` within it. */
  function PixelOffset(g: Geometry, i: int, j: int, c: int): int {
    j * g.step + i * g.channels + c
  }

  /** Every channel of every pixel of the image lies inside the buffer. */
  lemma PixelOffsetInside(g: Geometry, i: int, j: int, c: int)
    requires GeometryOk(g)
    requires 0 <= i < g.width && 0 <= j < g.height && 0 <= c < g.channels
    ensures 0 <= i * g.channels + c < g.width * g.channels <= g.step
    ensures 0 <= PixelOffset(g, i, j, c) < g.step * g.height
  {
    Arith.PixelInRow(i, c, g.channels, g.width);
    Arith.RowMajorBound(j, i * g.channels + c, g.step, g.height);
  }

  /** A rectangle of pixels: columns `x .. x+w-1`, rows `y .. y+h-1`. */
  datatype Rect = Rect(x: int, y: int, w: int, h: int)

  predicate InRect(r: Rect, i: int, j: int) {
    r.x <= i < r.x + r.w && r.y <= j < r.y + r.h
  }

  /** The clipping of `set_rect` in the hw02 copies: a negative overhang is first
      added to the extent, then the origin moves to 0. The rectangle that results
      covers exactly the pixels of non-negative coordinates the request covers. */
  function ClipShrinkFirst(x: int, y: int, w: int, h: int): (r: Rect)
    ensures 0 <= r.x && 0 <= r.y
    ensures forall i, j :: 0 <= i && 0 <= j ==> (InRect(r, i, j) <==> InRect(Rect(x, y, w, h), i, j))
  {
    var (x', w') := if x < 0 then (0, w + x) else (x, w);
    var (y', h') := if y < 0 then (0, h + y) else (y, h);
    Rect(x', y', w', h')
  }

  /** The clipping of `set_rect` in the 02T and 03T copies: the origin moves to 0
      first, so the following `width += x` adds 0 and the extent is kept. The
      rectangle that results covers at least what the request covers. */
  function ClipZeroFirst(x: int, y: int, w: int, h: int): (r: Rect)
    ensures 0 <= r.x && 0 <= r.y && r.w == w && r.h == h
    ensures x < 0 ==> r.x == 0
    ensures 0 <= x ==> r.x == x
    ensures y < 0 ==> r.y == 0
    ensures 0 <= y ==> r.y == y
    ensures forall i, j :: 0 <= i && 0 <= j && InRect(Rect(x, y, w, h), i, j) ==> InRect(r, i, j)
  {
    var (x', w') := if x < 0 then var x0 := 0; (x0, w + x0) else (x, w);
    var (y', h') := if y < 0 then var y0 := 0; (y0, h + y0) else (y, h);
    Rect(x', y', w', h')
  }

  /** The same byte `v` for each of `n` channels. */
  function Solid(v: byte, n: nat): (colour: seq<byte>)
    ensures |colour| == n && forall c :: 0 <= c < n ==> colour[c] == v
  {
    seq(n, _ => v)
  }

  /** The grey level `set_rect_rgb` uses on a one-channel image: the integer
      average `(red + green + blue) / 3`, rounded down. */
  function AverageGray(red: byte, green: byte, blue: byte): (v: byte)
    ensures 3 * v <= red + green + blue < 3 * v + 3
  {
    (red + green + blue) / 3
  }

  /** Byte `k` of a buffer laid out by `g` is a channel of a pixel inside the
      image (not row padding) and that pixel lies in `r`. */
  predicate Covers(g: Geometry, r: Rect, k: int) {
    && 0 < g.step && 0 < g.channels && 0 <= k
    && k % g.step < g.width * g.channels
    && InRect(r, (k % g.step) / g.channels, k / g.step)
  }

  /** The buffer after the fill loops of `set_rect`/`set_rect_rgb` with an origin
      that is already non-negative: channel `c` of every pixel of `r` inside the
      image gets `colour[c]`, every other byte keeps its value. */
  function FillRect(d: seq<byte>, g: Geometry, r: Rect, colour: seq<byte>): (e: seq<byte>)
    requires |colour| == g.channels
    ensures |e| == |d|
  {
    seq(|d|, k requires 0 <= k < |d| =>
      if Covers(g, r, k) then colour[(k % g.step) % g.channels] else d[k])
  }

  /** The byte of channel `c` of an in-image pixel `(i, j)` is covered exactly
      when the pixel lies in `r`, and it is channel `c` of that pixel. */
  lemma CoversPixel(g: Geometry, r: Rect, i: int, j: int, c: int)
    requires GeometryOk(g)
    requires 0 <= i < g.width && 0 <= j < g.height && 0 <= c < g.channels
    ensures 0 <= PixelOffset(g, i, j, c) < g.step * g.height
    ensures Covers(g, r, PixelOffset(g, i, j, c)) <==> InRect(r, i, j)
    ensures (PixelOffset(g, i, j, c) % g.step) % g.channels == c
  {
    PixelOffsetInside(g, i, j, c);
    var p := i * g.channels + c;
    Arith.PixelInRow(i, c, g.channels, g.width);
    Arith.Decompose(j, p, g.step);
  }

  /** No byte before the first pixel of `r` (row `r.y`, column `r.x`) is covered. */
  lemma CoversNothingBefore(g: Geometry, r: Rect, k: int)
    requires GeometryOk(g) && 0 <= r.x && 0 <= r.y
    requires 0 <= k < r.y * g.step + r.x * g.channels
    ensures !Covers(g, r, k)
  {
    if 0 < g.step && 0 < g.channels {
      Arith.Recompose(k, g.step);
      var row, p := k / g.step, k % g.step;
      if r.y <= row {
        Arith.MulLeMono(r.y, row, g.step);
        Arith.PixelIndexBelow(p, g.channels, r.x);
      }
    }
  }

  /** Between the last byte written on row `j` (the column loop stopped at
      `iEnd`) and the first byte of `r` on row `j + 1`, no byte is covered. */
  lemma CoversNothingBetween(g: Geometry, r: Rect, j: int, iEnd: int, k: int)
    requires GeometryOk(g) && 0 <= r.x <= iEnd && (g.width <= iEnd || r.x + r.w <= iEnd)
    requires 0 <= j && j * g.step + iEnd * g.channels <= k < (j + 1) * g.step + r.x * g.channels
    ensures !Covers(g, r, k)
  {
    if 0 < g.step && 0 < g.channels && 0 <= k {
      Arith.Recompose(k, g.step);
      var row, p := k / g.step, k % g.step;
      Arith.PixelIndexBelow(p, g.channels, g.width);
      if row < j {
        Arith.MulLtStep(row, j, g.step);
        Arith.MulLeMono(0, iEnd, g.channels);
      } else if row == j {
        Arith.PixelIndexBelow(p, g.channels, iEnd);
      } else if row == j + 1 {
        Arith.PixelIndexBelow(p, g.channels, r.x);
      } else {
        Arith.MulLeMono(j + 2, row, g.step);
        if r.x <= g.width {
          Arith.MulLeMono(r.x, g.width, g.channels);
        }
        Arith.PixelIndexBelow(p, g.channels, r.x);
      }
    }
  }

  /** The fill leaves alone every byte before the first pixel of `r`. */
  lemma FillRectBefore(d: seq<byte>, g: Geometry, r: Rect, colour: seq<byte>)
    requires Fits(g, d) && |colour| == g.channels && 0 <= r.x && 0 <= r.y
    ensures forall k :: 0 <= k < r.y * g.step + r.x * g.channels && k < |d| ==> FillRect(d, g, r, colour)[k] == d[k]
  {
    forall k | 0 <= k < r.y * g.step + r.x * g.channels && k < |d|
      ensures FillRect(d, g, r, colour)[k] == d[k]
    {
      CoversNothingBefore(g, r, k);
    }
  }

  /** The fill leaves alone every byte from column `r.x` of row `jEnd` on, when
      the row loop stopped at `jEnd`. */
  lemma FillRectAfter(d: seq<byte>, g: Geometry, r: Rect, colour: seq<byte>, jEnd: int)
    requires Fits(g, d) && |colour| == g.channels && 0 <= r.x && 0 <= jEnd
    requires g.height <= jEnd || r.y + r.h <= jEnd
    ensures forall k :: jEnd * g.step + r.x * g.channels <= k < |d| ==> FillRect(d, g, r, colour)[k] == d[k]
  {
    Arith.MulLeMono(0, r.x, g.channels);
    Arith.MulLeMono(0, jEnd, g.step);
    forall k | jEnd * g.step + r.x * g.channels <= k < |d|
      ensures FillRect(d, g, r, colour)[k] == d[k]
    {
      NothingCoveredFrom(g, r, jEnd, k);
    }
  }

  /** The fill leaves alone the bytes between the end of the writes on row `j`
      (the column loop stopped at `iEnd`) and the first byte of `r` on row
      `j + 1`; that gap does not run backwards. */
  lemma FillRectGap(d: seq<byte>, g: Geometry, r: Rect, colour: seq<byte>, j: int, iEnd: int)
    requires Fits(g, d) && |colour| == g.channels
    requires 0 <= r.x <= iEnd && (g.width <= iEnd || r.x + r.w <= iEnd) && (iEnd <= g.width || iEnd == r.x)
    requires 0 <= j
    ensures j * g.step + iEnd * g.channels <= j * g.step + g.step + r.x * g.channels
    ensures forall k ::
      j * g.step + iEnd * g.channels <= k < j * g.step + g.step + r.x * g.channels && 0 <= k < |d| ==>
        FillRect(d, g, r, colour)[k] == d[k]
  {
    if iEnd <= g.width {
      Arith.MulLeMono(iEnd, g.width, g.channels);
    }
    Arith.MulLeMono(0, r.x, g.channels);
    assert (j + 1) * g.step == j * g.step + g.step;
    forall k | j * g.step + iEnd * g.channels <= k < j * g.step + g.step + r.x * g.channels && 0 <= k < |d|
      ensures FillRect(d, g, r, colour)[k] == d[k]
    {
      CoversNothingBetween(g, r, j, iEnd, k);
    }
  }

  /** No byte from row `jEnd` on is covered when the row loop stopped there. */
  lemma NothingCoveredFrom(g: Geometry, r: Rect, jEnd: int, k: int)
    requires GeometryOk(g) && 0 <= k < g.step * g.height
    requires g.height <= jEnd || r.y + r.h <= jEnd
    requires jEnd * g.step <= k
    ensures !Covers(g, r, k)
  {
    if 0 < g.step {
      Arith.Recompose(k, g.step);
      Arith.RowBelow(k, g.step, g.height);
      if k / g.step < jEnd {
        Arith.MulLtStep(k / g.step, jEnd, g.step);
      }
    }
  }

  /** What the fill does to one channel of one pixel. */
  lemma FillRectPixel(d: seq<byte>, g: Geometry, r: Rect, colour: seq<byte>, i: int, j: int, c: int)
    requires Fits(g, d) && |colour| == g.channels
    requires 0 <= i < g.width && 0 <= j < g.height && 0 <= c < g.channels
    ensures 0 <= PixelOffset(g, i, j, c) < |d|
    ensures FillRect(d, g, r, colour)[PixelOffset(g, i, j, c)]
         == if InRect(r, i, j) then colour[c] else d[PixelOffset(g, i, j, c)]
  {
    CoversPixel(g, r, i, j, c);
  }

  /** Row padding beyond `m_width * m_n_channels` is never written. */
  lemma FillRectPadding(d: seq<byte>, g: Geometry, r: Rect, colour: seq<byte>, j: int, p: int)
    requires Fits(g, d) && |colour| == g.channels
    requires 0 <= j < g.height && g.width * g.channels <= p < g.step
    ensures 0 <= j * g.step + p < |d|
    ensures FillRect(d, g, r, colour)[j * g.step + p] == d[j * g.step + p]
  {
    Arith.RowMajorBound(j, p, g.step, g.height);
    Arith.Decompose(j, p, g.step);
  }

  /** An empty rectangle leaves the buffer as it was. */
  lemma FillRectEmpty(d: seq<byte>, g: Geometry, r: Rect, colour: seq<byte>)
    requires |colour| == g.channels
    requires r.w <= 0 || r.h <= 0
    ensures FillRect(d, g, r, colour) == d
  {
  }

  /** Filling twice with the same arguments is filling once. */
  lemma FillRectIdempotent(d: seq<byte>, g: Geometry, r: Rect, colour: seq<byte>)
    requires |colour| == g.channels
    ensures FillRect(FillRect(d, g, r, colour), g, r, colour) == FillRect(d, g, r, colour)
  {
  }

  /** The gray geometry of a `width` by `height` image without padding. */
  function GrayGeometry(width: nat, height: nat): (g: Geometry)
    ensures GeometryOk(g) && g.channels == 1 && g.step == width
  {
    Geometry(width, height, 1, width)
  }

  /** A `set_rect(-2, -2, 5, 5, 9)` on a 10 by 10 black gray image with the hw02
      clipping sets exactly the pixels of `[0,3) x [0,3)` to 9. */
  lemma ShrinkFirstCorner(i: int, j: int)
    requires 0 <= i < 10 && 0 <= j < 10
    ensures FillRect(Solid(0, 100), GrayGeometry(10, 10), ClipShrinkFirst(-2, -2, 5, 5), [9])[j * 10 + i]
         == if i < 3 && j < 3 then 9 else 0
  {
    FillRectPixel(Solid(0, 100), GrayGeometry(10, 10), ClipShrinkFirst(-2, -2, 5, 5), [9], i, j, 0);
  }

  /** With the 02T/03T clipping the same call also sets pixel (4, 4), which lies
      outside the requested rectangle `[-2,3) x [-2,3)`. */
  lemma ZeroFirstOverfills()
    ensures !InRect(Rect(-2, -2, 5, 5), 4, 4)
    ensures FillRect(Solid(0, 100), GrayGeometry(10, 10), ClipZeroFirst(-2, -2, 5, 5), [9])[4 * 10 + 4] == 9
  {
    FillRectPixel(Solid(0, 100), GrayGeometry(10, 10), ClipZeroFirst(-2, -2, 5, 5), [9], 4, 4, 0);
  }

  /** With the 02T/03T clipping, `set_rect(-10, 0, 5, 5, 9)` on a 10 by 10 black
      gray image, a request that lies wholly left of the image, still sets the
      pixels of `[0,5) x [0,5)` to 9; the hw02 clipping sets none. */
  lemma ZeroFirstLeftOfImage(i: int, j: int)
    requires 0 <= i < 10 && 0 <= j < 10
    ensures forall p, q :: 0 <= p && 0 <= q ==> !InRect(Rect(-10, 0, 5, 5), p, q)
    ensures FillRect(Solid(0, 100), GrayGeometry(10, 10), ClipZeroFirst(-10, 0, 5, 5), [9])[j * 10 + i]
         == if i < 5 && j < 5 then 9 else 0
    ensures FillRect(Solid(0, 100), GrayGeometry(10, 10), ClipShrinkFirst(-10, 0, 5, 5), [9])[j * 10 + i] == 0
  {
    FillRectPixel(Solid(0, 100), GrayGeometry(10, 10), ClipZeroFirst(-10, 0, 5, 5), [9], i, j, 0);
    FillRectPixel(Solid(0, 100), GrayGeometry(10, 10), ClipShrinkFirst(-10, 0, 5, 5), [9], i, j, 0);
  }

  /** The rows the fill loops of `set_rect` and `set_rect_rgb` visit: from `y`
      while below `y + height`, leaving the loop at the last row of the image. */
  predicate RowVisited(g: Geometry, y: int, h: int, j: int) {
    y <= j < y + h && j < g.height
  }

  /** The columns the three-channel loop of `set_rect_rgb` visits as the code
      stands: it leaves the loop only once `i > m_width`. */
  predicate RgbColumnAsWritten(g: Geometry, x: int, w: int, i: int) {
    x <= i < x + w && !(i > g.width)
  }

  /** The columns it visits with the bound `i >= m_width` that `set_rect` uses. */
  predicate RgbColumnBounded(g: Geometry, x: int, w: int, i: int) {
    x <= i < x + w && !(i >= g.width)
  }

  /** On a 2 by 2 RGB image without padding, `set_rect_rgb(2, 0, 8, 8, ...)` (the
      Bayer loop of the test driver issues such calls with `x == w`) visits
      column 2 of rows 0 and 1: in row 0 that is the first pixel of row 1, left
      of the rectangle, and in row 1 it is a whole pixel starting at the end of
      the buffer. */
  lemma RgbOffByOne()
    ensures var g := Geometry(2, 2, 3, 6);
      && RowVisited(g, 0, 8, 0) && RowVisited(g, 0, 8, 1) && RgbColumnAsWritten(g, 2, 8, 2)
      && PixelOffset(g, 2, 0, 0) == PixelOffset(g, 0, 1, 0)
      && !InRect(Rect(2, 0, 8, 8), 0, 1)
      && PixelOffset(g, 2, 1, 0) == g.step * g.height
      && PixelOffset(g, 2, 1, 2) == g.step * g.height + 2
  {
  }

  /** With the bounded column loop and a non-negative origin, each byte written
      is inside the buffer and is a channel of a pixel of the rectangle. */
  lemma RgbBoundedWritesInside(g: Geometry, x: int, y: int, w: int, h: int, i: int, j: int, c: int)
    requires GeometryOk(g) && g.channels == 3 && 0 <= x && 0 <= y
    requires RowVisited(g, y, h, j) && RgbColumnBounded(g, x, w, i) && 0 <= c < 3
    ensures 0 <= PixelOffset(g, i, j, c) < g.step * g.height
    ensures Covers(g, Rect(x, y, w, h), PixelOffset(g, i, j, c))
  {
    PixelOffsetInside(g, i, j, c);
    Arith.PixelInRow(i, c, 3, g.width);
    Arith.Decompose(j, i * 3 + c, g.step);
  }
}

=== FILE: resample.dfy ===
/** Nearest-neighbour magnification (`scaleup_nn`): the byte layout of the
    magnified image, stated over byte sequences. */
module Resample {
  import opened Bytes
  import opened Raster
  import Arith

  /** The geometry `scaleup_nn(scale)` leaves behind: `scale` times the width and
      the height, a stride equal to the new width, and the channel count unchanged. */
  function ScaledGeometry(g: Geometry, scale: int): Geometry {
    Geometry(scale * g.width, scale * g.height, g.channels, scale * g.width)
  }

  /** The byte that output byte `(i, j)` copies lies inside the source buffer. */
  lemma NearestInside(g: Geometry, scale: int, i: int, j: int)
    requires GeometryOk(g) && 1 <= g.channels && 0 <= scale
    requires 0 <= i < scale * g.height && 0 <= j < scale * g.width
    ensures 1 <= scale
    ensures 0 <= (i / scale) * g.step + j / scale < g.step * g.height
  {
    Arith.ScaledDown(i, scale, g.height);
    Arith.ScaledDown(j, scale, g.width);
    Arith.MulLeMono(1, g.channels, g.width);
    assert g.channels * g.width == g.width * g.channels;
    Arith.RowMajorBound(i / scale, j / scale, g.step, g.height);
    assert g.height * g.step == g.step * g.height;
  }

  /** The source byte that output byte `(i, j)` copies: row `i / scale`, byte
      `j / scale` of that row, addressed with the old stride. The index is a byte
      index, not a pixel index, whatever the channel count. */
  function NearestSample(d: seq<byte>, g: Geometry, scale: int, i: int, j: int): byte
    requires Fits(g, d) && 1 <= g.channels && 1 <= scale
    requires 0 <= i < scale * g.height && 0 <= j < scale * g.width
  {
    NearestInside(g, scale, i, j);
    d[(i / scale) * g.step + j / scale]
  }

  /** The buffer `scaleup_nn` builds: `scale * m_width` bytes per row, with no
      padding, each byte taken from its nearest source byte. On a one-channel
      image this is the layout of the scaled geometry. */
  function Magnify(d: seq<byte>, g: Geometry, scale: int): (e: seq<byte>)
    requires Fits(g, d) && 1 <= g.channels && 0 <= scale
    ensures |e| == (scale * g.width) * (scale * g.height)
    ensures g.channels == 1 ==> Fits(ScaledGeometry(g, scale), e)
  {
    var w', h' := scale * g.width, scale * g.height;
    Arith.MulLeMono(0, scale, g.width);
    Arith.MulLeMono(0, scale, g.height);
    if scale == 0 || w' == 0 then []
    else
      seq(w' * h', k requires 0 <= k < w' * h' =>
        Arith.RowBelow(k, w', h');
        Arith.Recompose(k, w');
        NearestSample(d, g, scale, k / w', k % w'))
  }

  /** Output byte `(i, j)` of the magnified buffer is the nearest source byte. */
  lemma MagnifyAt(d: seq<byte>, g: Geometry, scale: int, i: int, j: int)
    requires Fits(g, d) && 1 <= g.channels && 1 <= scale
    requires 0 <= i < scale * g.height && 0 <= j < scale * g.width
    ensures 0 <= i * (scale * g.width) + j < |Magnify(d, g, scale)|
    ensures Magnify(d, g, scale)[i * (scale * g.width) + j] == NearestSample(d, g, scale, i, j)
  {
    Arith.RowMajorBound(i, j, scale * g.width, scale * g.height);
    Arith.Decompose(i, j, scale * g.width);
  }

  /** Every `scale` by `scale` block of the output is uniform: each of its bytes
      equals source pixel `(J, I)`, the pixel the block magnifies. */
  lemma MagnifyBlock(d: seq<byte>, g: Geometry, scale: int, I: int, J: int, a: int, b: int)
    requires Fits(g, d) && g.channels == 1 && 1 <= scale
    requires 0 <= I < g.height && 0 <= J < g.width && 0 <= a < scale && 0 <= b < scale
    ensures 0 <= (I * scale + a) * (scale * g.width) + (J * scale + b) < |Magnify(d, g, scale)|
    ensures 0 <= PixelOffset(g, J, I, 0) < |d|
    ensures Magnify(d, g, scale)[(I * scale + a) * (scale * g.width) + (J * scale + b)]
         == d[PixelOffset(g, J, I, 0)]
  {
    var i, j := I * scale + a, J * scale + b;
    Arith.RowMajorBound(I, a, scale, g.height);
    Arith.RowMajorBound(J, b, scale, g.width);
    assert i < scale * g.height && j < scale * g.width;
    Arith.Decompose(I, a, scale);
    Arith.Decompose(J, b, scale);
    Arith.RowMajorBound(I, J, g.step, g.height);
    var v := NearestSample(d, g, scale, i, j);
    assert v == d[I * g.step + J];
    MagnifyAt(d, g, scale, i, j);
  }

  /** On a three-channel image the geometry `scaleup_nn` leaves has a stride of
      one byte per pixel, too short for the three channels of a row. */
  lemma ScaledRgbStrideTooShort(g: Geometry, scale: int)
    requires GeometryOk(g) && g.channels == 3 && 1 <= g.width && 1 <= scale
    ensures !GeometryOk(ScaledGeometry(g, scale))
  {
    Arith.MulLeMono(1, scale, g.width);
  }
}
